=== FILE: README.md ===
# ColorPicker interaction core, in Dafny

This project models the interaction and synchronisation core of the Android colour-picker library
`top.defaults.colorpicker`. The library ships a Kotlin and a Java version of each view. The model covers:

- **`ColorObservableEmitter`**: the observer registry every view owns. It is an ordered list of
  registrations, duplicates allowed, plus the last colour it announced.
- **`ThrottledTouchEventHandler`**: the rate limiter in front of pointer-down and pointer-move events.
- **`ColorSliderView`** (Kotlin and Java) and the channel arithmetic of its subclass **`AlphaSliderView`**.
  This covers the track geometry, touch updates, left/right keys with the Kotlin acceleration counter,
  programmatic versus user base colours, and bind/unbind to another view.
- **`ColorWheelView`** (Kotlin and Java). This covers the geometry taken from the view size, touch
  updates, programmatic colours, the Idle/Armed keyboard state machine and the clamp that keeps the
  selector on the disk.

Every operation is a pure function of the view's state and its arguments. Operations that can announce
a colour return a `Step`: the next state, the signal the view's emitter announced (if any), and the
notifications that emitter delivered, one per registration in registry order. These are touches,
key-downs, `setColor`/`setBaseColor`, the relay of a bound view, and the wheel's `onSizeChanged` (it
re-places the current colour through `setColor`). `Widget.Published` ties each step's notifications to
the emitter's broadcast rule. The other operations return something else:

- `Slider.OnSizeChanged` and the two `OnKeyUp`s never announce, and return only the next view.
- `Slider.Bind` returns a `Binding`: the slider's `Step` together with the source's updated registry.
- `Slider.Unbind` returns the slider together with that registry.

Colours are the platform's packed ARGB Java `int`. `Float.toInt()` is truncation toward zero
(`Colors.Trunc`). Pixel coordinates and slider values are exact reals.

Some platform code is not visible to the model: the HSV conversions, the square root, the hue/saturation
trigonometry of `getColorAtPoint`, and the cos/sin placement in `setColor`. These are function-valued
fields of a `Platform` record. Nothing is assumed about them except where a lemma says so in its
`requires`:

- `SqrtSound`: the square root returns the non-negative root.
- `KeepsAlpha`: `HSVToColor(alpha, hsv)` puts `alpha` in the top byte.
- `ClampStaysInDisk`: follows from `SqrtSound` (`Wheel.SoundClampStaysInDisk`).

The two dialects differ, and the model selects between them with `Dialect`:

- **Kotlin views:** count consecutive key-downs, capped at 15.
  - The slider moves by `0.001 * count` per press.
  - The wheel moves by `count` pixels per press.
  - A key-up resets the counter.
- **Java views:** have no counter.
  - The slider moves by `0.005` per press.
  - The wheel moves by one pixel per press.
  - Neither view overrides key-up.

The wheel's diagonal keys are modelled twice, selected by `Wheel.Diagonals`:

- `AsWritten`: exactly as each file writes them.
- `Corrected`: each diagonal moves along both of its cardinal directions.

See "## Findings".

The model follows the code in three places where a reader might expect a safer binding protocol:

- `bind` never unsubscribes from a previously bound source.
- `bind(null)` forgets the link without unsubscribing.
- Two views bound to each other are not protected against echo loops. This one is a finding; see
  "## Findings".

## Model

| member | source | states |
|---|---|---|
| ColorEmitter.New | colorpicker/src/main/java/top/defaults/colorpicker/ColorObservableEmitter.kt:6-7 | A new emitter has no registrations and caches colour 0. |
| ColorEmitter.Subscribe | colorpicker/src/main/java/top/defaults/colorpicker/ColorObservableEmitter.kt:10-15 | A null observer is ignored. Any other observer is appended at the end, even if already registered, and the cached colour is untouched. |
| ColorEmitter.FirstIndex | colorpicker/src/main/java/top/defaults/colorpicker/ColorObservableEmitter.kt:21 | The index found holds the observer and no earlier index does, which is the position `remove(Object)` acts on. |
| ColorEmitter.RemoveFirst | colorpicker/src/main/java/top/defaults/colorpicker/ColorObservableEmitter.kt:21 | Removing an absent observer changes nothing. Removing a present one shortens the list by exactly one. |
| ColorEmitter.RemoveFirstRemovesFirst | colorpicker/src/main/java/top/defaults/colorpicker/ColorObservableEmitter.kt:21 | Only the first occurrence is dropped. Everything before and after it is kept in order. |
| ColorEmitter.RemoveFirstMultiset | colorpicker/src/main/java/top/defaults/colorpicker/ColorObservableEmitter.kt:21 | As a bag, removal takes away one copy of the observer and nothing else. |
| ColorEmitter.Unsubscribe | colorpicker/src/main/java/top/defaults/colorpicker/ColorObservableEmitter.kt:17-22 | A null or unregistered observer changes nothing. Otherwise exactly the first registration goes and the rest keep their order. |
| ColorEmitter.Broadcast | colorpicker/src/main/java/top/defaults/colorpicker/ColorObservableEmitter.kt:26-28 | There is one callback per registration, in registry order, each carrying the same three arguments. |
| ColorEmitter.OnColor | colorpicker/src/main/java/top/defaults/colorpicker/ColorObservableEmitter.kt:24-29 | The cached colour becomes the announced one, the registry is unchanged, and every registration is notified in order. |
| ColorEmitter.BroadcastOncePerRegistration | colorpicker/src/main/java/top/defaults/colorpicker/ColorObservableEmitter.kt:26-28 | Each observer is called exactly as many times as it is registered. |
| ColorEmitter.SubscribeUnsubscribe | colorpicker/src/main/java/top/defaults/colorpicker/ColorObservableEmitter.kt:10-22 | Subscribing then unsubscribing restores the registry as a multiset. It restores it exactly when the observer was not already registered. |
| Throttle.New | colorpicker/src/main/java/top/defaults/colorpicker/ThrottledTouchEventHandler.kt:6-8 | A new handler is attached, has the given interval, and has a last pass time of 0. |
| Throttle.OnTouchEvent | colorpicker/src/main/java/top/defaults/colorpicker/ThrottledTouchEventHandler.kt:17-27 | A null target drops everything. An event at most `minInterval` after the last pass is dropped and the gate is unchanged. A later event is forwarded and its time is remembered. |
| Throttle.RunSpaced | colorpicker/src/main/java/top/defaults/colorpicker/ThrottledTouchEventHandler.kt:21-26 | Over any clock readings, forwarded events are each more than `minInterval` after the previous pass, and the gate ends remembering the last one. |
| Throttle.RunPassesSubsequence | colorpicker/src/main/java/top/defaults/colorpicker/ThrottledTouchEventHandler.kt:21-26 | The forwarded readings are a subsequence of the readings fed in: in their order, none invented, and no more of them. |
| Throttle.SubsequenceFacts | colorpicker/src/main/java/top/defaults/colorpicker/ThrottledTouchEventHandler.kt:21-26 | A subsequence is no longer than its sequence and holds only its elements. |
| Throttle.SpacedIsIncreasing | colorpicker/src/main/java/top/defaults/colorpicker/ThrottledTouchEventHandler.kt:21-24 | With a non-negative interval, forwarded times are strictly increasing. |
| Throttle.DetachedRunsSilent | colorpicker/src/main/java/top/defaults/colorpicker/ThrottledTouchEventHandler.kt:18-20 | A handler without a target forwards nothing, ever. |
| Throttle.TwoEvents | colorpicker/src/main/java/top/defaults/colorpicker/ThrottledTouchEventHandler.kt:21-26 | A second event passes exactly when its gap exceeds the interval. A gap equal to the interval is dropped. |
| Colors.Alpha | colorpicker/src/main/java/top/defaults/colorpicker/AlphaSliderView.kt:37 | The alpha channel of any colour is a byte, 0 to 255. |
| Colors.AlphaOfArgb | colorpicker/src/main/java/top/defaults/colorpicker/AlphaSliderView.kt:37 | Reading the alpha of a packed colour returns the byte it was packed with, including for negative (opaque) Java ints. |
| Colors.WhiteAndMagentaAreOpaque | colorpicker/src/main/java/top/defaults/colorpicker/ColorWheelView.kt:25 | The initial wheel colour (magenta) and the initial slider base (white, `ColorSliderView.kt` line 17) are opaque, with the expected colour bits. |
| Colors.Trunc | colorpicker/src/main/java/top/defaults/colorpicker/AlphaSliderView.kt:53 | `toInt()` truncates toward zero: never above a non-negative value, never below a negative one, within one of it. |
| AlphaSlider.ResolveValue | colorpicker/src/main/java/top/defaults/colorpicker/AlphaSliderView.kt:36-38 | The value is in [0, 1]. It is 0 exactly for transparent colours and 1 exactly for opaque ones. |
| AlphaSlider.AlphaByte | colorpicker/src/main/java/top/defaults/colorpicker/AlphaSliderView.kt:53 | A value in [0, 1] gives a byte. The ends map to 0 and 255. |
| AlphaSlider.AssembleColor | colorpicker/src/main/java/top/defaults/colorpicker/AlphaSliderView.kt:50-55 | When `HSVToColor` keeps the alpha it is given, the assembled colour's alpha is the byte of the slider's value. |
| AlphaSlider.AlphaByteOfResolve | colorpicker/src/main/java/top/defaults/colorpicker/AlphaSliderView.kt:36-38 | Resolving a colour's value and converting it back yields that colour's alpha byte. |
| AlphaSlider.AssembleIgnoresBaseAlpha | colorpicker/src/main/java/top/defaults/colorpicker/AlphaSliderView.kt:50-55 | Only the base colour's HSV matters. Bases with the same HSV assemble to the same colour. |
| AlphaSlider.AssembledAlpha | colorpicker/src/main/java/top/defaults/colorpicker/AlphaSliderView.kt:50-55 | The assembled colour's alpha is the slider's byte, whatever the base. |
| AlphaSlider.ResolveAssembleRoundTrip | colorpicker/src/main/java/top/defaults/colorpicker/AlphaSliderView.kt:36-55 | Assembling from a resolved value reproduces the resolved colour's alpha on any base. |
| AlphaSlider.AlphaByteMonotone | colorpicker/src/main/java/top/defaults/colorpicker/AlphaSliderView.kt:53 | A larger value never gives a smaller alpha byte. |
| Slider.New | colorpicker/src/main/java/top/defaults/colorpicker/ColorSliderView.kt:17-29 | A new slider has a white base, value 1, a zero counter, reports every touch, has a fresh emitter and throttle, no bound source, and padding 6 on each side (lines 202-206). |
| Slider.NewIsValid | colorpicker/src/main/java/top/defaults/colorpicker/ColorSliderView.kt:17-29 | A new slider starts with its value on the track and its counter under the cap. The initial value 1 is what white resolves to. |
| Slider.OnSizeChanged | colorpicker/src/main/java/top/defaults/colorpicker/ColorSliderView.kt:31-39 | The track's ends move in by a quarter of the height on each side, and nothing but the geometry changes. |
| Slider.SizedTrackSpansValues | colorpicker/src/main/java/top/defaults/colorpicker/ColorSliderView.kt:31-39 | After a resize, the value and the invariant are kept, and on a track of positive length the pointer at the left end sets 0 and at the right end sets 1 (`updateValue`, lines 149-161). |
| Slider.ClampToTrack | colorpicker/src/main/java/top/defaults/colorpicker/ColorSliderView.kt:153-158 | On a proper track the position lands on the track and positions already on it are kept. On an inverted track the right end wins. |
| Slider.TrackRatio | colorpicker/src/main/java/top/defaults/colorpicker/ColorSliderView.kt:149-161 | There is no ratio exactly when the track has zero length. Otherwise the ratio is in [0, 1], 0 left of the track, 1 right of it, and proportional on it. An inverted track gives 1. `ColorSliderView.java` lines 161-172 compute the same ratio. |
| Slider.PointerValue | colorpicker/src/main/java/top/defaults/colorpicker/ColorSliderView.kt:149-161 | On a proper track the value is in [0, 1], 0 left of the track, 1 right of it and proportional on it. An inverted track gives 1. A zero-length track keeps the current value. |
| Slider.TrackRatioMonotone | colorpicker/src/main/java/top/defaults/colorpicker/ColorSliderView.kt:149-161 | Moving the pointer right never lowers the value. |
| Slider.TrackRatioInverse | colorpicker/src/main/java/top/defaults/colorpicker/ColorSliderView.kt:149-161 | The track position at fraction `t` resolves to exactly `t`. |
| Slider.Update | colorpicker/src/main/java/top/defaults/colorpicker/ColorSliderView.kt:113-119 | The value follows the pointer. The colour is announced unless only releases are reported and this is not a release. It is flagged as a user change that propagates only on release. `ColorSliderView.java` lines 122-129 do the same. |
| Slider.OnTouchEvent | colorpicker/src/main/java/top/defaults/colorpicker/ColorSliderView.kt:57-70 | Down and move go through the throttle, up updates directly, and other actions do nothing. |
| Slider.Clamp01 | colorpicker/src/main/java/top/defaults/colorpicker/ColorSliderView.kt:138-144 | The result is in [0, 1]. Values inside are kept and values outside go to the nearer end. |
| Slider.UpdateCurrentValue | colorpicker/src/main/java/top/defaults/colorpicker/ColorSliderView.kt:138-147 | The value is clamped and the assembled colour is always announced as a propagating user change. |
| Slider.OnKeyDown | colorpicker/src/main/java/top/defaults/colorpicker/ColorSliderView.kt:77-106 | Kotlin bumps the capped counter on every key-down. Left and right move the value by the dialect's step, clamp it and announce it. Other keys change nothing else and announce nothing. Java (`ColorSliderView.java` lines 94-115) has no counter and a fixed step of 0.005. |
| Slider.OnKeyUp | colorpicker/src/main/java/top/defaults/colorpicker/ColorSliderView.kt:72-75 | Kotlin resets the counter. Java has no override and nothing changes. |
| Slider.SetBaseColor | colorpicker/src/main/java/top/defaults/colorpicker/ColorSliderView.kt:121-136 | The base becomes the colour. A programmatic colour re-resolves the value and is announced as is. A user colour keeps the value and announces the base with the slider's channel. In release-only mode it announces only when asked to propagate. `ColorSliderView.java` lines 131-148 do the same. |
| Slider.ProgrammaticColorSetsChannel | colorpicker/src/main/java/top/defaults/colorpicker/ColorSliderView.kt:125-126 | After a programmatic colour, whatever the slider assembles carries that colour's alpha. |
| Slider.UserColorKeepsChannel | colorpicker/src/main/java/top/defaults/colorpicker/ColorSliderView.kt:127-128 | A user colour never overrides the slider's channel. The announced colour carries the slider's own alpha. |
| Slider.StepsPreserveValid | colorpicker/src/main/java/top/defaults/colorpicker/ColorSliderView.kt:57-161 | Touches, keys and base colours all keep the value in [0, 1] and the counter within its cap. |
| Slider.KeysMoveValueOneWay | colorpicker/src/main/java/top/defaults/colorpicker/ColorSliderView.kt:85-90 | Right never lowers the value and left never raises it. |
| Slider.KeyCountRamps | colorpicker/src/main/java/top/defaults/colorpicker/ColorSliderView.kt:72-83 | After a key-up and `n` key-downs, the Kotlin counter is `min(n, 15)`. |
| Slider.KeyCountRampsFrom | colorpicker/src/main/java/top/defaults/colorpicker/ColorSliderView.kt:79-83 | From any count within the cap, `n` key-downs reach `min(count + n, 15)`. |
| Slider.OnlyReleasesReported | colorpicker/src/main/java/top/defaults/colorpicker/ColorSliderView.kt:113-119 | In release-only mode, any touch sequence announces exactly one propagating user signal per release. |
| Slider.Bind | colorpicker/src/main/java/top/defaults/colorpicker/ColorSliderView.kt:187-193 | Binding to null forgets the link. Otherwise the relay is subscribed to the source, the source's colour becomes a propagating user base, and the link is recorded. `ColorSliderView.java` lines 208-214 do the same. |
| Slider.Unbind | colorpicker/src/main/java/top/defaults/colorpicker/ColorSliderView.kt:195-200 | The caller must pass the source the slider is bound to, if any. When bound, the link is forgotten and the source's registry loses its first relay registration, if it has one. Everything before and after it keeps its order, and the colour is kept. When not bound, nothing changes. |
| Slider.Deliver | colorpicker/src/main/java/top/defaults/colorpicker/ColorSliderView.kt:181-185 | As written, the relay is exactly `setBaseColor` with the signal's arguments. The guarded relay differs only by staying silent, emitter untouched, when `setBaseColor` would re-announce the colour the slider last announced. Either way the step is the emitter's broadcast. |
| Slider.EchoDeliveries | colorpicker/src/main/java/top/defaults/colorpicker/ColorSliderView.kt:181-193 | Counts the deliveries in a ping-pong between two mutually bound sliders, up to a bound. It is at least 1 and at most the bound. |
| Slider.EchoNeverSettles | colorpicker/src/main/java/top/defaults/colorpicker/ColorSliderView.kt:121-136 | As written, a colour between two mutually bound sliders is delivered back and forth as many times as allowed, and never settles. This holds whenever both sliders report every touch, whatever the signal's propagate flag, and for any propagating signal in any mode. |
| Slider.GuardedEchoSettles | colorpicker/src/main/java/top/defaults/colorpicker/ColorSliderView.kt:181-193 | With the guarded relay, and HSV conversions under which the HSV of any colour survives `HSVToColor` with any alpha byte and `colorToHSV` again (`Slider.HsvRoundTrip`), a slider's own user colour sent to its mutually bound partner, propagating or not, settles after at most two deliveries. |
| Slider.BoundSliderHearsSource | colorpicker/src/main/java/top/defaults/colorpicker/ColorSliderView.kt:181-193 | After a bind, every colour the source announces reaches this slider's relay unchanged, after the source's earlier observers. |
| Slider.BindUnbindRestoresSource | colorpicker/src/main/java/top/defaults/colorpicker/ColorSliderView.kt:187-200 | Bind then unbind leaves the source's registry exactly as it was, if the relay was not already there. |
| Slider.RebindKeepsOldRelay | colorpicker/src/main/java/top/defaults/colorpicker/ColorSliderView.kt:187-193 | Binding the same source twice without unbinding leaves two relay registrations there. |
| Wheel.New | colorpicker/src/main/java/top/defaults/colorpicker/ColorWheelView.kt:19-31 | A new wheel is magenta, not armed, with a zero counter, radius 0, the selector at the centre, reporting every touch, with a fresh emitter and throttle. |
| Wheel.NewIsValid | colorpicker/src/main/java/top/defaults/colorpicker/ColorWheelView.kt:19-31 | A new wheel satisfies the disk and counter invariant. |
| Wheel.ClampWith | colorpicker/src/main/java/top/defaults/colorpicker/ColorWheelView.java:203-212 | Given a distance `r`, a point is kept unless `r` exceeds the radius (and is non-zero). Then its offset from the centre is scaled by `radius / r`. `ColorWheelView.kt` lines 162-171 do the same. |
| Wheel.Clamp | colorpicker/src/main/java/top/defaults/colorpicker/ColorWheelView.kt:162-171 | The clamp with `r` the platform's square root of the squared distance. The point is kept unless `r` exceeds the radius and is non-zero; then its offset from the centre is scaled by `radius / r`. |
| Wheel.UpdateSelector | colorpicker/src/main/java/top/defaults/colorpicker/ColorWheelView.kt:162-173 | Only the selector changes, and it becomes the clamp of the pointer. |
| Wheel.ScaledOffset | colorpicker/src/main/java/top/defaults/colorpicker/ColorWheelView.kt:166-169 | Scaling an offset of length `r` by `radius / r` gives length `radius`, keeps the ray and keeps each coordinate's sign. |
| Wheel.ClampKeepsInnerPoints | colorpicker/src/main/java/top/defaults/colorpicker/ColorWheelView.kt:162-171 | Under a sound square root, a point within the radius stays exactly where it is. |
| Wheel.ClampProjectsOuterPoints | colorpicker/src/main/java/top/defaults/colorpicker/ColorWheelView.kt:162-171 | A point beyond the radius lands exactly on the circle, on the same ray from the centre. |
| Wheel.ClampInsideDisk | colorpicker/src/main/java/top/defaults/colorpicker/ColorWheelView.kt:162-171 | Whatever the input, the clamped point is on the disk. |
| Wheel.ClampIdempotent | colorpicker/src/main/java/top/defaults/colorpicker/ColorWheelView.java:203-212 | Clamping an already clamped point changes nothing. |
| Wheel.ClampWithKeepsInnerPoints | colorpicker/src/main/java/top/defaults/colorpicker/ColorWheelView.java:204-212 | Given the true distance, a point within the radius is kept. |
| Wheel.ClampWithProjectsOuterPoints | colorpicker/src/main/java/top/defaults/colorpicker/ColorWheelView.java:204-212 | Given the true distance, an outer point is scaled onto the circle along its ray, without flipping either coordinate's sign. |
| Wheel.SoundClampStaysInDisk | colorpicker/src/main/java/top/defaults/colorpicker/ColorWheelView.kt:162-171 | With a sound square root, the clamp keeps every point on every non-negative disk. |
| Wheel.SetColor | colorpicker/src/main/java/top/defaults/colorpicker/ColorWheelView.kt:149-160 | The selector goes to the clamped placement of the colour and the colour is remembered. It is announced as a programmatic change unless only releases are reported. |
| Wheel.OnSizeChanged | colorpicker/src/main/java/top/defaults/colorpicker/ColorWheelView.kt:44-54 | The radius is always stored, even when negative. A negative radius stops there. Otherwise the centre moves to half the net size and the current colour is re-placed without propagation. |
| Wheel.Update | colorpicker/src/main/java/top/defaults/colorpicker/ColorWheelView.kt:124-132 | The colour under the raw pointer is announced unless only releases are reported and this is not a release. The selector follows the pointer, clamped, either way. |
| Wheel.OnTouchEvent | colorpicker/src/main/java/top/defaults/colorpicker/ColorWheelView.kt:56-69 | Down and move go through the throttle, up updates directly, and other actions do nothing. |
| Wheel.Pressed | colorpicker/src/main/java/top/defaults/colorpicker/ColorWheelView.kt:113-114 | A handled armed key announces the colour at the unclamped target as a propagating user change, then moves the selector to the clamped target. |
| Wheel.OnKeyDown | colorpicker/src/main/java/top/defaults/colorpicker/ColorWheelView.kt:76-122 | Idle: only Enter or Center arms, silently. Armed: Kotlin bumps the capped counter; a direction moves and announces; Back disarms and still announces at the unchanged point; other keys change nothing but the counter. `ColorWheelView.java` lines 112-164 are the same machine with a one-pixel step and no counter. |
| Wheel.OnKeyUp | colorpicker/src/main/java/top/defaults/colorpicker/ColorWheelView.kt:71-74 | Kotlin resets the counter. Java has no override and nothing changes. |
| Wheel.AsWrittenAction | colorpicker/src/main/java/top/defaults/colorpicker/ColorWheelView.kt:88-111 | Exactly the eight direction keys move, Back disarms, other keys are unhandled. Horizontal moves and the four cardinal vertical moves follow the key's name. Kotlin moves `DPAD_DOWN_RIGHT` up and the other diagonals down. Java (`ColorWheelView.java` lines 119-153) inverts every diagonal's vertical part. |
| Wheel.CorrectedAction | colorpicker/src/main/java/top/defaults/colorpicker/ColorWheelView.kt:88-111 | In the corrected table, every direction key moves one step along each axis its name points to, Back disarms, and other keys are unhandled. |
| Wheel.AsWrittenDiagonalsDisagree | colorpicker/src/main/java/top/defaults/colorpicker/ColorWheelView.kt:93-108 | As written, two different diagonal keys make the same move, and up-diagonals move down while the up key moves up. |
| Wheel.CorrectedDiagonalsCompose | colorpicker/src/main/java/top/defaults/colorpicker/ColorWheelView.java:119-147 | In the corrected table, each diagonal is the sum of its two cardinal moves, and the eight direction keys make eight different moves. |
| Wheel.DirectionsDiffer | colorpicker/src/main/java/top/defaults/colorpicker/ColorWheelView.java:119-147 | Two different direction keys differ on at least one axis. |
| Wheel.MovesAreOneStepPerAxis | colorpicker/src/main/java/top/defaults/colorpicker/ColorWheelView.java:119-153 | Every move is at most one step per axis and never zero. Exactly the direction keys move. The as-written and corrected tables agree exactly off the wrong diagonals. |
| Wheel.TouchPreservesValid | colorpicker/src/main/java/top/defaults/colorpicker/ColorWheelView.kt:56-69 | Touches keep the selector on the disk and the counter under its cap. |
| Wheel.KeysPreserveValid | colorpicker/src/main/java/top/defaults/colorpicker/ColorWheelView.kt:71-122 | Key-downs and key-ups keep the selector on the disk and the counter under its cap. |
| Wheel.KeyDownTarget | colorpicker/src/main/java/top/defaults/colorpicker/ColorWheelView.kt:80-115 | An armed key-down keeps the geometry and either leaves the selector or moves it to the clamp of some point. |
| Wheel.ClampedStepKeepsValid | colorpicker/src/main/java/top/defaults/colorpicker/ColorWheelView.kt:162-171 | A step that keeps the geometry and only ever moves the selector through the clamp keeps the invariant. |
| Wheel.SetColorPreservesValid | colorpicker/src/main/java/top/defaults/colorpicker/ColorWheelView.kt:149-160 | Placing a colour keeps the selector on the disk. |
| Wheel.SizePreservesValid | colorpicker/src/main/java/top/defaults/colorpicker/ColorWheelView.kt:44-54 | A size change restores the invariant from any counter within its cap. With a usable radius the selector is on the disk of the new geometry. |
| Wheel.OnlyReleasesReported | colorpicker/src/main/java/top/defaults/colorpicker/ColorWheelView.kt:124-132 | In release-only mode, any touch sequence announces exactly one propagating user signal per release. |
| Wheel.ArmMoveDisarm | colorpicker/src/main/java/top/defaults/colorpicker/ColorWheelView.kt:109-119 | Enter arms silently, a direction key then announces, Back disarms with a last announcement, and after that directions are silent. |
| Widget.BumpKeyCount | colorpicker/src/main/java/top/defaults/colorpicker/ColorWheelView.kt:83-87 | The counter goes up by one until it reaches 15 and then stays there. It is always between 1 and 15 afterwards. |
| Widget.EmitPublishes | colorpicker/src/main/java/top/defaults/colorpicker/ColorObservableEmitter.kt:24-29 | Emitting a signal or nothing is exactly the emitter's broadcast rule. |

## Left out

- Drawing is not modelled: `onDraw`, `configurePaint`, `onMeasure`, the checkerboard background, and the palette and selector views (`ColorWheelPalette`, `ColorWheelSelector`). They affect only pixels.
- The colour the wheel passes to `ColorWheelSelector.setCurrentPoint` is not modelled, because it is only drawn.
- The HSV conversions, `Math.sqrt`, the `atan2` hue and the `cos`/`sin` placement are parameters (`Platform`). Their numeric content is Android's and the standard library's, not visible here.
- Float precision is not modelled: coordinates and values are exact reals. Rounding in `0.001f * keyDownCount` or `currentValue * 255` is out of scope.
- Slider.PointerValue: on a zero-length track the source divides 0 by 0 and stores NaN. The model keeps the old value instead, because NaN has no real counterpart.
- Slider.Update: inherits the zero-length-track choice of `Slider.PointerValue`.
- Wheel.ClampWith: at the exact centre with a negative radius the source divides by a zero distance and produces NaN. The model keeps the point.
- Wheel.Clamp: inherits the exact-centre choice of `Wheel.ClampWith`.
- Wheel.KeysPreserveValid: states the disk invariant only for non-negative radii. A negative radius has no disk.
- Wheel.TouchPreservesValid: states the disk invariant only for non-negative radii. A negative radius has no disk.
- Observer callbacks are not run. `onColor` returns the notifications it would deliver. What a bound view's relay does with one is `Slider.SetBaseColor`, so re-entrant chains between mutually bound views are not unfolded.
- Loop-freedom for mutually bound views is not provided by the source. The model exhibits the loop and proves that a guarded relay ends it; see "## Findings".
- `Slider.HsvRoundTrip` is a platform assumption, used only by `Slider.GuardedEchoSettles`. It asks only that the HSV triple of a colour survive `HSVToColor` (with any alpha byte) and `colorToHSV` again; arbitrary real triples need not survive. `Slider.HsvRoundTripSatisfiable` gives a platform that meets it. Whether Android's float conversions meet it exactly for every colour is not modelled.
- Self-binding (`bind(this)`) is not modelled as the source runs it. There, `setBaseColor` re-enters its own relay and recurses without end. The model's `Slider.Bind` returns the source's registry separately from the slider's own emitter, so it treats the source as a different view.
- `Constants.EVENT_MIN_INTERVAL` and `SELECTOR_RADIUS_DP` (times the display density) are parameters. `Constants` is not part of this model.
- `System.currentTimeMillis()` is the parameter `now`.
- The `ColorObservable` interface and the `getColor` accessor are not modelled separately. They read the emitter's cached `color` field.
- `setOnlyUpdateOnTouchEventUp` is the state field `onlyUpdateOnTouchEventUp`.
- Logging, `onKeyLongPress`, `invalidate`, and the `super` fall-through return values (whether an event was consumed) are not modelled, because they do not change the model's state.
- Key events whose action is not `ACTION_DOWN`, and null events, are not modelled, because they only reach logging and `super`.
- `bindObserver`'s identity is `Relay(self)`. The views' own subscribe/unsubscribe delegate to their emitter and are `ColorEmitter.Subscribe` / `ColorEmitter.Unsubscribe` applied to its `emitter` field.

## Findings

| source | as written | input that shows it | evidently intended | confidence | as-written member | corrected member |
|---|---|---|---|---|---|---|
| colorpicker/src/main/java/top/defaults/colorpicker/ColorWheelView.kt:93-108 | `DPAD_UP_LEFT` makes the same move as `DPAD_DOWN_LEFT` (x − k, y + k). `DPAD_UP_RIGHT` moves down (y + k) and `DPAD_DOWN_RIGHT` moves up (y − k), while `DPAD_UP` moves up (y − k). | Armed wheel, counter 0, press `DPAD_UP_LEFT`: the selector moves one pixel left and one pixel down. | Each diagonal moves along both cardinal directions in its name. | medium, not executed | Wheel.AsWrittenDiagonalsDisagree | Wheel.CorrectedDiagonalsCompose |
| colorpicker/src/main/java/top/defaults/colorpicker/ColorWheelView.java:132-147 | Every diagonal's vertical part is the opposite of the `DPAD_UP` / `DPAD_DOWN` moves in the same switch: `DOWN_*` does `y--`, `UP_*` does `y++`. | Armed wheel, press `DPAD_UP_LEFT`: the selector moves one pixel left and one pixel down, whereas `DPAD_UP` moves it up. | Each diagonal moves along both cardinal directions in its name. | medium, not executed | Wheel.AsWrittenDiagonalsDisagree | Wheel.CorrectedDiagonalsCompose |
| colorpicker/src/main/java/top/defaults/colorpicker/ColorSliderView.kt:181-193 | The bind relay hands every colour it hears to `setBaseColor(color, fromUser, shouldPropagate)`, which re-announces every colour it is handed, with the same flag, when the view reports every touch. A view in release-only mode re-announces it when `shouldPropagate` is set (lines 130-134). Nothing checks whether the colour is the one the view just announced. | Two sliders bound to each other, both in the default live mode, and the user drags one. Each non-propagating move colour is relayed to the other slider, which announces it back, without end. | A view fed back its own just-announced colour stays quiet, so mutual binding settles. | medium, not executed | Slider.EchoNeverSettles | Slider.GuardedEchoSettles |

=== FILE: alpha.dfy ===
/**
 * The channel arithmetic of `AlphaSliderView`: the slider value is the alpha
 * byte scaled into [0, 1], and the assembled colour is the base colour's
 * hue/saturation/value with the slider's alpha.
 */
module AlphaSlider {
  import opened Colors

  /** `resolveValue`: the alpha byte over 255. */
  function ResolveValue(c: Color): (t: real)
    ensures 0.0 <= t <= 1.0
    ensures t == 0.0 <==> Alpha(c) == 0
    ensures t == 1.0 <==> Alpha(c) == 255
  {
    Alpha(c) as real / 255.0
  }

  /** The alpha `assembleColor` passes to `HSVToColor`: `(currentValue * 255).toInt()`. */
  function AlphaByte(v: real): (a: int)
    ensures 0.0 <= v <= 1.0 ==> 0 <= a <= 255
    ensures v == 0.0 ==> a == 0
    ensures v == 1.0 ==> a == 255
  {
    Trunc(v * 255.0)
  }

  /** `assembleColor`: the base colour's HSV with the slider's alpha. */
  function AssembleColor(pf: Platform, baseColor: Color, currentValue: real): (c: Color)
    ensures KeepsAlpha(pf) && 0.0 <= currentValue <= 1.0 ==> Alpha(c) == AlphaByte(currentValue)
  {
    pf.hsvToColor(AlphaByte(currentValue), pf.colorToHsv(baseColor))
  }

  /** Over exact reals, the value resolved from a colour truncates back to that colour's alpha byte. */
  lemma AlphaByteOfResolve(c: Color)
    ensures AlphaByte(ResolveValue(c)) == Alpha(c)
  {
    var a := Alpha(c);
    assert ResolveValue(c) * 255.0 == a as real;
    assert (a as real).Floor == a;
  }

  /** The base colour contributes only its HSV: two bases with equal HSV assemble to the same colour,
      whatever their alpha bytes. */
  lemma AssembleIgnoresBaseAlpha(pf: Platform, b1: Color, b2: Color, v: real)
    requires pf.colorToHsv(b1) == pf.colorToHsv(b2)
    ensures AssembleColor(pf, b1, v) == AssembleColor(pf, b2, v)
  {
  }

  /** The assembled colour's alpha is chosen by the slider value alone. */
  lemma AssembledAlpha(pf: Platform, baseColor: Color, v: real)
    requires KeepsAlpha(pf) && 0.0 <= v <= 1.0
    ensures Alpha(AssembleColor(pf, baseColor, v)) == AlphaByte(v)
  {
    var a := AlphaByte(v);
    assert Alpha(pf.hsvToColor(a, pf.colorToHsv(baseColor))) == a;
  }

  /** Resolving a colour and assembling from the result carries that colour's alpha onto any base. */
  lemma ResolveAssembleRoundTrip(pf: Platform, baseColor: Color, c: Color)
    requires KeepsAlpha(pf)
    ensures Alpha(AssembleColor(pf, baseColor, ResolveValue(c))) == Alpha(c)
  {
    AssembledAlpha(pf, baseColor, ResolveValue(c));
    AlphaByteOfResolve(c);
  }

  /** A larger slider value never yields a smaller alpha byte. */
  lemma AlphaByteMonotone(v1: real, v2: real)
    requires 0.0 <= v1 <= v2
    ensures AlphaByte(v1) <= AlphaByte(v2)
  {
    assert v1 * 255.0 <= v2 * 255.0;
  }
}

=== FILE: colors.dfy ===
/**
 * Colours as the platform represents them (a packed ARGB Java `int`), and the
 * platform calls the widgets make but whose code is not visible: the HSV
 * conversions, the square root and the trigonometry that maps points to hues.
 * They are carried as function values in a `Platform` record, so every
 * operation of the model is parameterised by them and nothing is assumed about
 * them unless a lemma says so in its `requires`.
 */
module Colors {

  /** A packed 0xAARRGGBB colour, as a signed 32-bit Java `int`. */
  type Color = int

  const TWO_TO_24: int := 0x100_0000
  const TWO_TO_32: int := 0x1_0000_0000

  /** `Color.WHITE` (0xFFFFFFFF read as a signed int). */
  const WHITE: Color := -1
  /** `Color.MAGENTA` (0xFFFF00FF read as a signed int). */
  const MAGENTA: Color := -65281

  /** True when `c` is representable as a Java `int`. */
  predicate IsInt32(c: int) {
    -0x8000_0000 <= c < 0x8000_0000
  }

  /** `Color.alpha`: the top byte of the 32-bit pattern (an unsigned shift by 24). */
  function Alpha(c: Color): (a: int)
    ensures 0 <= a <= 255
  {
    (c % TWO_TO_32) / TWO_TO_24
  }

  /** The 32-bit pattern with alpha byte `a` and colour bits `rgb`, read as a signed int. */
  function Argb(a: int, rgb: int): (c: Color)
    requires 0 <= a <= 255 && 0 <= rgb < TWO_TO_24
    ensures IsInt32(c)
  {
    var bits := a * TWO_TO_24 + rgb;
    if bits >= 0x8000_0000 then bits - TWO_TO_32 else bits
  }

  /** `Color.alpha` reads back exactly the alpha byte a colour was packed with. */
  lemma AlphaOfArgb(a: int, rgb: int)
    requires 0 <= a <= 255 && 0 <= rgb < TWO_TO_24
    ensures Alpha(Argb(a, rgb)) == a
  {
    var bits := a * TWO_TO_24 + rgb;
    assert 0 <= bits < TWO_TO_32;
    assert Argb(a, rgb) % TWO_TO_32 == bits;
    assert bits / TWO_TO_24 == a;
  }

  lemma WhiteAndMagentaAreOpaque()
    ensures Alpha(WHITE) == 255 && Alpha(MAGENTA) == 255
    ensures WHITE == Argb(255, 0xFF_FFFF) && MAGENTA == Argb(255, 0xFF_00FF)
  {
  }

  /** `Float.toInt()` on a finite value: truncation toward zero. */
  function Trunc(x: real): (n: int)
    ensures 0.0 <= x ==> n as real <= x < n as real + 1.0
    ensures x < 0.0 ==> n as real - 1.0 < x <= n as real
  {
    if x >= 0.0 then x.Floor else -((-x).Floor)
  }

  datatype Hsv = Hsv(hue: real, saturation: real, value: real)

  datatype Point = Point(x: real, y: real)

  /**
   * The calls into code the model cannot see.
   *  - colorToHsv: `Color.colorToHSV`
   *  - hsvToColor: `Color.HSVToColor(alpha, hsv)`
   *  - sqrt:       `Math.sqrt` / `kotlin.math.sqrt`
   *  - colorAtPoint(x, y, centre, radius): the wheel's `getColorAtPoint`
   *    (atan2 for the hue, distance over radius for the saturation)
   *  - placement(color, centre, radius): the point `setColor` computes with
   *    cos/sin from the colour's hue and saturation
   */
  datatype Platform = Platform(
    colorToHsv: Color -> Hsv,
    hsvToColor: (int, Hsv) -> Color,
    sqrt: real -> real,
    colorAtPoint: (real, real, Point, real) -> Color,
    placement: (Color, Point, real) -> Point)

  /** The square root returns the non-negative root of a non-negative argument. */
  ghost predicate SqrtSound(pf: Platform) {
    forall v: real {:trigger pf.sqrt(v)} :: 0.0 <= v ==> 0.0 <= pf.sqrt(v) && pf.sqrt(v) * pf.sqrt(v) == v
  }

  /** `HSVToColor(alpha, hsv)` puts `alpha` into the top byte of its result. */
  ghost predicate KeepsAlpha(pf: Platform) {
    forall a: int, h: Hsv {:trigger pf.hsvToColor(a, h)} :: 0 <= a <= 255 ==> Alpha(pf.hsvToColor(a, h)) == a
  }
}

=== FILE: emitter.dfy ===
/**
 * The observer registry every widget owns (`ColorObservableEmitter`): an
 * ordered list of registrations, duplicates allowed, and the last colour
 * passed to `onColor`. Observer callbacks are not run; `onColor` returns the
 * notifications it would deliver, one per registration, in registry order.
 */
module ColorEmitter {
  import opened Options
  import opened Colors

  /** The three arguments of `ColorObserver.onColor`. */
  datatype Signal = Signal(color: Color, fromUser: bool, shouldPropagate: bool)

  /** One callback invocation: `observer.onColor(signal)`. */
  datatype Notification<O> = Notification(observer: O, signal: Signal)

  datatype Emitter<O> = Emitter(observers: seq<O>, color: Color)

  /** A fresh emitter: no registrations, cached colour 0. */
  function New<O>(): (e: Emitter<O>)
    ensures |e.observers| == 0 && e.color == 0
  {
    Emitter([], 0)
  }

  /** `subscribe`: `null` is ignored, anything else is appended, even if already present. */
  function Subscribe<O>(e: Emitter<O>, o: Option<O>): (r: Emitter<O>)
    ensures o.None? ==> r == e
    ensures o.Some? ==> r.observers == e.observers + [o.value]
    ensures r.color == e.color
    ensures o.Some? ==> |r.observers| == |e.observers| + 1
  {
    match o
    case None => e
    case Some(obs) => e.(observers := e.observers + [obs])
  }

  /** The position of the first occurrence of `x` in `s`. */
  function FirstIndex<O(==)>(s: seq<O>, x: O): (i: nat)
    requires x in s
    ensures i < |s| && s[i] == x && x !in s[..i]
  {
    if s[0] == x then 0
    else
      var j := FirstIndex(s[1..], x);
      assert s[1..][..j] == s[1..j + 1];
      assert s[..j + 1] == [s[0]] + s[1..j + 1];
      j + 1
  }

  /** `ArrayList.remove(Object)`: drop the first element equal to `x`, if any. */
  function RemoveFirst<O(==)>(s: seq<O>, x: O): (r: seq<O>)
    ensures x !in s ==> r == s
    ensures x in s ==> |r| == |s| - 1
  {
    if |s| == 0 then s
    else if s[0] == x then s[1..]
    else [s[0]] + RemoveFirst(s[1..], x)
  }

  /** Exactly the first occurrence goes: what precedes it and what follows it are kept, in order. */
  lemma {:induction false} RemoveFirstRemovesFirst<O>(s: seq<O>, x: O)
    requires x in s
    ensures RemoveFirst(s, x) == s[..FirstIndex(s, x)] + s[FirstIndex(s, x) + 1..]
  {
    if s[0] != x {
      RemoveFirstRemovesFirst(s[1..], x);
      var j := FirstIndex(s[1..], x);
      assert s[..j + 1] == [s[0]] + s[1..][..j];
      assert s[j + 2..] == s[1..][j + 1..];
    }
  }

  /** As a bag, removal takes away one copy of `x` and nothing else. */
  lemma {:induction false} RemoveFirstMultiset<O>(s: seq<O>, x: O)
    ensures multiset(RemoveFirst(s, x)) == multiset(s) - multiset{x}
  {
    if |s| > 0 {
      assert s == [s[0]] + s[1..];
      if s[0] != x {
        RemoveFirstMultiset(s[1..], x);
      }
    }
  }

  /** `unsubscribe`: `null` is ignored; otherwise the first registration of `o` goes. */
  function Unsubscribe<O(==)>(e: Emitter<O>, o: Option<O>): (r: Emitter<O>)
    ensures o.None? ==> r == e
    ensures o.Some? && o.value !in e.observers ==> r == e
    ensures o.Some? && o.value in e.observers ==>
              |r.observers| == |e.observers| - 1 &&
              var i := FirstIndex(e.observers, o.value);
              r.observers == e.observers[..i] + e.observers[i + 1..]
    ensures r.color == e.color
  {
    match o
    case None => e
    case Some(obs) =>
      if obs in e.observers then
        RemoveFirstRemovesFirst(e.observers, obs);
        e.(observers := RemoveFirst(e.observers, obs))
      else
        e
  }

  /** The callbacks `onColor` makes: one per registration, in order, with the same signal. */
  function Broadcast<O>(observers: seq<O>, s: Signal): (ns: seq<Notification<O>>)
    ensures |ns| == |observers|
    ensures forall i :: 0 <= i < |ns| ==> ns[i].observer == observers[i] && ns[i].signal == s
  {
    if |observers| == 0 then []
    else [Notification(observers[0], s)] + Broadcast(observers[1..], s)
  }

  /** `onColor`: cache the colour, then notify every registration. */
  function OnColor<O>(e: Emitter<O>, s: Signal): (r: (Emitter<O>, seq<Notification<O>>))
    ensures r.0.observers == e.observers
    ensures r.0.color == s.color
    ensures |r.1| == |e.observers|
    ensures forall i :: 0 <= i < |r.1| ==> r.1[i] == Notification(e.observers[i], s)
  {
    (e.(color := s.color), Broadcast(e.observers, s))
  }

  /** How many of the notifications are addressed to `o`. */
  function CountFor<O(==)>(ns: seq<Notification<O>>, o: O): nat
  {
    if |ns| == 0 then 0
    else (if ns[0].observer == o then 1 else 0) + CountFor(ns[1..], o)
  }

  /** Each observer is called exactly as many times as it is registered. */
  lemma {:induction false} BroadcastOncePerRegistration<O>(observers: seq<O>, s: Signal, o: O)
    ensures CountFor(Broadcast(observers, s), o) == multiset(observers)[o]
  {
    if |observers| > 0 {
      BroadcastOncePerRegistration(observers[1..], s, o);
      assert observers == [observers[0]] + observers[1..];
      var ns := Broadcast(observers, s);
      assert ns[1..] == Broadcast(observers[1..], s);
    }
  }

  /** Subscribing then unsubscribing the same observer restores the registry as a multiset,
      and restores it exactly when the observer was not registered before. */
  lemma SubscribeUnsubscribe<O>(e: Emitter<O>, o: O)
    ensures multiset(Unsubscribe(Subscribe(e, Some(o)), Some(o)).observers) == multiset(e.observers)
    ensures o !in e.observers ==> Unsubscribe(Subscribe(e, Some(o)), Some(o)) == e
  {
    var s := e.observers + [o];
    RemoveFirstMultiset(s, o);
    if o !in e.observers {
      assert FirstIndex(s, o) == |e.observers|;
      assert s[..|e.observers|] == e.observers;
    }
  }
}

=== FILE: options.dfy ===
/** An optional value: stands for Java/Kotlin `null` wherever the source accepts one. */
module Options {

  datatype Option<+T> = None | Some(value: T)
}

=== FILE: slider.dfy ===
/**
 * The linear slider (`ColorSliderView`, in its Kotlin and Java versions, with
 * the channel arithmetic of its one concrete subclass, `AlphaSliderView`).
 * Every operation is a pure step from the view's state and one event to the
 * next state and what the view's emitter delivered.
 */
module Slider {
  import opened Options
  import opened Colors
  import opened ColorEmitter
  import Throttle
  import opened Widget
  import opened AlphaSlider

  /** The pixel geometry the track is derived from; every view sets a padding of 6 on creation. */
  datatype Layout = Layout(width: real, paddingLeft: real, paddingRight: real, selectorSize: real)

  datatype Slider = Slider(
    dialect: Dialect,
    baseColor: Color,
    currentValue: real,
    onlyUpdateOnTouchEventUp: bool,
    emitter: Emitter<Observer>,
    gate: Throttle.Gate,
    keyDownCount: nat,
    layout: Layout,
    bound: Option<WidgetId>)

  /** A freshly constructed view: white base, value 1, no observers, nothing bound. */
  function New(dialect: Dialect, minInterval: int): (s: Slider)
    ensures s.baseColor == WHITE && s.currentValue == 1.0 && s.keyDownCount == 0 && !s.onlyUpdateOnTouchEventUp
    ensures s.emitter == ColorEmitter.New() && s.gate == Throttle.New(minInterval) && s.bound.None?
    ensures s.layout.paddingLeft == 6.0 && s.layout.paddingRight == 6.0 && s.dialect == dialect
  {
    Slider(dialect, WHITE, 1.0, false, ColorEmitter.New(), Throttle.New(minInterval), 0,
           Layout(0.0, 6.0, 6.0, 0.0), None)
  }

  /** The state machine's standing invariant: the value is on the track and the counter under its cap. */
  ghost predicate Valid(s: Slider) {
    0.0 <= s.currentValue <= 1.0 && s.keyDownCount <= MAX_KEY_COUNT
  }

  lemma NewIsValid(dialect: Dialect, minInterval: int)
    ensures Valid(New(dialect, minInterval))
    ensures New(dialect, minInterval).currentValue == ResolveValue(WHITE)
  {
  }

  function TrackLeft(l: Layout): real {
    l.paddingLeft + l.selectorSize
  }

  function TrackRight(l: Layout): real {
    l.width - l.paddingRight - l.selectorSize
  }

  /** `onSizeChanged`: the selector is a quarter of the height; only the geometry changes. */
  function OnSizeChanged(s: Slider, w: int, h: int): (r: Slider)
    ensures r == s.(layout := r.layout)
    ensures TrackLeft(r.layout) == s.layout.paddingLeft + h as real / 4.0
    ensures TrackRight(r.layout) == w as real - s.layout.paddingRight - h as real / 4.0
  {
    s.(layout := s.layout.(width := w as real, selectorSize := h as real * 0.25))
  }

  /** After a size change the new track spans the value range: when the track has positive length, a
      pointer at its left end sets 0 and one at its right end sets 1. The value itself, and the
      invariant, survive the resize. */
  lemma SizedTrackSpansValues(s: Slider, w: int, h: int)
    ensures var r := OnSizeChanged(s, w, h);
            && r.currentValue == s.currentValue
            && (Valid(s) ==> Valid(r))
            && (TrackLeft(r.layout) < TrackRight(r.layout) ==>
                  PointerValue(r, TrackLeft(r.layout)) == 0.0 && PointerValue(r, TrackRight(r.layout)) == 1.0)
  {
  }

  /** The two clamping `if`s of `updateValue`, in the source's order. */
  function ClampToTrack(left: real, right: real, x: real): (c: real)
    ensures left <= right ==> left <= c <= right
    ensures left <= x <= right ==> c == x
    ensures right < left ==> c == right
  {
    var x1 := if x < left then left else x;
    if x1 > right then right else x1
  }

  /** `updateValue`'s ratio `(x - left) / (right - left)` of the clamped position. A track of
      zero length has no ratio (`None`). */
  function TrackRatio(left: real, right: real, x: real): (t: Option<real>)
    ensures t.None? <==> left == right
    ensures left < right ==> 0.0 <= t.value <= 1.0
    ensures left < right && x <= left ==> t.value == 0.0
    ensures left < right && right <= x ==> t.value == 1.0
    ensures left < right && left <= x <= right ==> t.value * (right - left) == x - left
    ensures right < left ==> t == Some(1.0)
  {
    if left == right then None
    else
      var c := ClampToTrack(left, right, x);
      SelfQuotient(right - left);
      if left < right then
        FractionOfRange(c - left, right - left);
        Some((c - left) / (right - left))
      else Some((c - left) / (right - left))
  }

  lemma FractionOfRange(a: real, d: real)
    requires 0.0 <= a <= d && 0.0 < d
    ensures 0.0 <= a / d <= 1.0
  {
    assert a / d * d == a;
  }

  /** Moving the pointer right never moves the value left. */
  lemma TrackRatioMonotone(left: real, right: real, x1: real, x2: real)
    requires left < right && x1 <= x2
    ensures TrackRatio(left, right, x1).value <= TrackRatio(left, right, x2).value
  {
    var c1 := ClampToTrack(left, right, x1);
    var c2 := ClampToTrack(left, right, x2);
    assert c1 <= c2;
    var d := right - left;
    assert (c1 - left) / d <= (c2 - left) / d by {
      assert (c2 - left) / d - (c1 - left) / d == (c2 - c1) / d;
    }
  }

  lemma SelfQuotient(d: real)
    requires d != 0.0
    ensures d / d == 1.0
  {
    assert d / d * d == d;
    assert (d / d - 1.0) * d == 0.0;
  }

  lemma CancelFactor(t: real, d: real)
    requires d != 0.0
    ensures t * d / d == t
  {
  }

  lemma ScaleWithinRange(t: real, d: real)
    requires 0.0 <= t <= 1.0 && 0.0 < d
    ensures 0.0 <= t * d <= d
  {
    assert d - t * d == (1.0 - t) * d;
  }

  /** The position at fraction `t` of the track resolves back to exactly `t`. */
  lemma TrackRatioInverse(left: real, right: real, t: real)
    requires left < right && 0.0 <= t <= 1.0
    ensures TrackRatio(left, right, left + t * (right - left)) == Some(t)
  {
    var d := right - left;
    var x := left + t * d;
    ScaleWithinRange(t, d);
    assert ClampToTrack(left, right, x) == x;
    assert x - left == t * d;
    CancelFactor(t, d);
    assert (x - left) / d == t;
    assert TrackRatio(left, right, x) == Some((x - left) / d);
    assert x == left + t * (right - left);
  }

  /** Record `s`'s emitter delivering `sig` (if any) in a step ending in `s` (with the emitter updated). */
  function Publish(s: Slider, sig: Option<Signal>): (r: Step<Slider>)
    ensures r.next == s.(emitter := r.next.emitter)
    ensures r.emitted == sig
    ensures Published(s.emitter, r.next.emitter, r.emitted, r.notes)
  {
    var (e, notes) := Emit(s.emitter, sig);
    Step(s.(emitter := e), sig, notes)
  }

  /** The value a pointer at `x` sets; a zero-length track leaves the value where it was. */
  function PointerValue(s: Slider, x: real): (v: real)
    ensures var left := TrackLeft(s.layout);
            var right := TrackRight(s.layout);
            && (left == right ==> v == s.currentValue)
            && (right < left ==> v == 1.0)
            && (left < right ==> 0.0 <= v <= 1.0)
            && (left < right && left <= x <= right ==> v * (right - left) == x - left)
            && (left < right && x <= left ==> v == 0.0)
            && (left < right && right <= x ==> v == 1.0)
  {
    match TrackRatio(TrackLeft(s.layout), TrackRight(s.layout), x)
    case Some(t) => t
    case None => s.currentValue
  }

  /** `update`: move the value to the pointer, and report the colour unless only releases are reported. */
  function Update(pf: Platform, s: Slider, ev: TouchEvent): (r: Step<Slider>)
    ensures r.next == s.(currentValue := PointerValue(s, ev.x), emitter := r.next.emitter)
    ensures r.emitted.Some? <==> EmitsOnTouch(s.onlyUpdateOnTouchEventUp, ev.action == ActionUp)
    ensures r.emitted.Some? ==>
              r.emitted.value == Signal(AssembleColor(pf, s.baseColor, r.next.currentValue), true, ev.action == ActionUp)
    ensures Published(s.emitter, r.next.emitter, r.emitted, r.notes)
  {
    var s1 := s.(currentValue := PointerValue(s, ev.x));
    var isUp := ev.action == ActionUp;
    Publish(s1, if !s.onlyUpdateOnTouchEventUp || isUp then Some(Signal(AssembleColor(pf, s1.baseColor, s1.currentValue), true, isUp)) else None)
  }

  /** `onTouchEvent`: down and move go through the throttle, up is applied directly, anything else is ignored. */
  function OnTouchEvent(pf: Platform, s: Slider, ev: TouchEvent, now: int): (r: Step<Slider>)
    ensures ev.action == ActionUp ==> r == Update(pf, s, ev)
    ensures ev.action == ActionOther ==> r == Step(s, None, [])
    ensures (ev.action == ActionDown || ev.action == ActionMove) ==>
              var (g, fwd) := Throttle.OnTouchEvent(s.gate, now, ev);
              if fwd.Some? then r == Update(pf, s.(gate := g), ev) else r == Step(s, None, [])
  {
    match ev.action
    case ActionDown | ActionMove =>
      var (g, fwd) := Throttle.OnTouchEvent(s.gate, now, ev);
      if fwd.Some? then Update(pf, s.(gate := g), fwd.value) else Step(s.(gate := g), None, [])
    case ActionUp => Update(pf, s, ev)
    case ActionOther => Step(s, None, [])
  }

  /** `if (v > 1) v = 1; if (v < 0) v = 0`. */
  function Clamp01(v: real): (c: real)
    ensures 0.0 <= c <= 1.0
    ensures 0.0 <= v <= 1.0 ==> c == v
    ensures v < 0.0 ==> c == 0.0
    ensures 1.0 < v ==> c == 1.0
  {
    var v1 := if v > 1.0 then 1.0 else v;
    if v1 < 0.0 then 0.0 else v1
  }

  /** `updateCurrentValue`: clamp the value and always report it as a user edit that propagates. */
  function UpdateCurrentValue(pf: Platform, s: Slider, v: real): (r: Step<Slider>)
    ensures r.next == s.(currentValue := Clamp01(v), emitter := r.next.emitter)
    ensures r.emitted == Some(Signal(AssembleColor(pf, s.baseColor, Clamp01(v)), true, true))
    ensures Published(s.emitter, r.next.emitter, r.emitted, r.notes)
  {
    var s1 := s.(currentValue := Clamp01(v));
    Publish(s1, Some(Signal(AssembleColor(pf, s1.baseColor, s1.currentValue), true, true)))
  }

  /** How far one left/right press moves the value: 0.001 per counted press in Kotlin, a fixed 0.005 in Java. */
  function KeyStep(dialect: Dialect, count: nat): real {
    match dialect
    case Kotlin => 0.001 * count as real
    case Java => 0.005
  }

  /** The counter after a key-down: bumped (and capped) in Kotlin, for every key; Java has no counter. */
  function CountAfterKeyDown(s: Slider): nat {
    match s.dialect
    case Kotlin => BumpKeyCount(s.keyDownCount)
    case Java => s.keyDownCount
  }

  /** `onKeyDown`: left and right nudge the value, clamp it and report it; other keys are not handled. */
  function OnKeyDown(pf: Platform, s: Slider, key: Key): (r: Step<Slider>)
    ensures s.dialect == Kotlin ==> r.next.keyDownCount == BumpKeyCount(s.keyDownCount)
    ensures s.dialect == Java ==> r.next.keyDownCount == s.keyDownCount
    ensures key != DpadLeft && key != DpadRight ==>
              r == Step(s.(keyDownCount := r.next.keyDownCount), None, [])
    ensures key == DpadLeft ==>
              r.next.currentValue == Clamp01(s.currentValue - KeyStep(s.dialect, r.next.keyDownCount))
    ensures key == DpadRight ==>
              r.next.currentValue == Clamp01(s.currentValue + KeyStep(s.dialect, r.next.keyDownCount))
    ensures (key == DpadLeft || key == DpadRight) ==>
              && r.next == s.(currentValue := r.next.currentValue, keyDownCount := r.next.keyDownCount,
                              emitter := r.next.emitter)
              && r.emitted == Some(Signal(AssembleColor(pf, s.baseColor, r.next.currentValue), true, true))
    ensures Published(s.emitter, r.next.emitter, r.emitted, r.notes)
  {
    var s1 := s.(keyDownCount := CountAfterKeyDown(s));
    var step := KeyStep(s.dialect, s1.keyDownCount);
    match key
    case DpadLeft => UpdateCurrentValue(pf, s1, s1.currentValue - step)
    case DpadRight => UpdateCurrentValue(pf, s1, s1.currentValue + step)
    case _ => Step(s1, None, [])
  }

  /** `onKeyUp`: the Kotlin view resets its counter; the Java view does not override it. */
  function OnKeyUp(s: Slider): (r: Slider)
    ensures s.dialect == Kotlin ==> r == s.(keyDownCount := 0)
    ensures s.dialect == Java ==> r == s
  {
    match s.dialect
    case Kotlin => s.(keyDownCount := 0)
    case Java => s
  }

  /** `setBaseColor`: a programmatic colour re-resolves the value from it and is reported as is; a user
      colour keeps the value and reports the base with the slider's own channel applied. */
  function SetBaseColor(pf: Platform, s: Slider, c: Color, fromUser: bool, shouldPropagate: bool): (r: Step<Slider>)
    ensures r.next.baseColor == c
    ensures !fromUser ==> r.next.currentValue == ResolveValue(c)
    ensures fromUser ==> r.next.currentValue == s.currentValue
    ensures r.next == s.(baseColor := c, currentValue := r.next.currentValue, emitter := r.next.emitter)
    ensures !s.onlyUpdateOnTouchEventUp ==> r.emitted == Some(Signal(BaseTarget(pf, s, c, fromUser), fromUser, shouldPropagate))
    ensures s.onlyUpdateOnTouchEventUp && shouldPropagate ==> r.emitted == Some(Signal(BaseTarget(pf, s, c, fromUser), fromUser, true))
    ensures s.onlyUpdateOnTouchEventUp && !shouldPropagate ==> r.emitted == None
    ensures Published(s.emitter, r.next.emitter, r.emitted, r.notes)
  {
    var s1 := s.(baseColor := c);
    var s2 := if !fromUser then s1.(currentValue := ResolveValue(c)) else s1;
    var target := if !fromUser then c else AssembleColor(pf, s2.baseColor, s2.currentValue);
    var sig :=
      if !s.onlyUpdateOnTouchEventUp then Some(Signal(target, fromUser, shouldPropagate))
      else if shouldPropagate then Some(Signal(target, fromUser, true))
      else None;
    Publish(s2, sig)
  }

  /** The colour `setBaseColor(c, fromUser, _)` reports. */
  function BaseTarget(pf: Platform, s: Slider, c: Color, fromUser: bool): Color {
    if fromUser then AssembleColor(pf, c, s.currentValue) else c
  }

  /** A programmatic colour brings the slider to that colour's alpha: what it assembles next carries it. */
  lemma ProgrammaticColorSetsChannel(pf: Platform, s: Slider, c: Color, p: bool, other: Color)
    requires KeepsAlpha(pf)
    ensures var n := SetBaseColor(pf, s, c, false, p).next;
            Valid(s) ==> Valid(n)
    ensures Alpha(AssembleColor(pf, other, SetBaseColor(pf, s, c, false, p).next.currentValue)) == Alpha(c)
  {
    ResolveAssembleRoundTrip(pf, other, c);
  }

  /** A user colour never overrides the slider's channel: whatever alpha the incoming colour has, the
      reported colour carries the slider's own. */
  lemma UserColorKeepsChannel(pf: Platform, s: Slider, c: Color, p: bool)
    requires KeepsAlpha(pf) && Valid(s)
    ensures var r := SetBaseColor(pf, s, c, true, p);
            r.emitted.Some? ==> Alpha(r.emitted.value.color) == AlphaByte(s.currentValue)
  {
    AssembledAlpha(pf, c, s.currentValue);
  }

  /** Every step keeps the value on the track and the counter under its cap. */
  lemma StepsPreserveValid(pf: Platform, s: Slider, ev: TouchEvent, now: int, key: Key, c: Color, u: bool, p: bool)
    requires Valid(s)
    ensures Valid(OnTouchEvent(pf, s, ev, now).next)
    ensures Valid(OnKeyDown(pf, s, key).next)
    ensures Valid(OnKeyUp(s))
    ensures Valid(SetBaseColor(pf, s, c, u, p).next)
  {
    var l := TrackLeft(s.layout);
    var rt := TrackRight(s.layout);
    if rt < l {
      assert TrackRatio(l, rt, ev.x) == Some(1.0);
    }
  }

  /** Pressing right never lowers the value and pressing left never raises it. */
  lemma KeysMoveValueOneWay(pf: Platform, s: Slider)
    requires Valid(s)
    ensures OnKeyDown(pf, s, DpadRight).next.currentValue >= s.currentValue
    ensures OnKeyDown(pf, s, DpadLeft).next.currentValue <= s.currentValue
  {
  }

  /** Press every key in `keys` in turn, with no key-up in between. */
  function PressKeys(pf: Platform, s: Slider, keys: seq<Key>): Slider
    decreases |keys|
  {
    if |keys| == 0 then s else PressKeys(pf, OnKeyDown(pf, s, keys[0]).next, keys[1..])
  }

  /** In Kotlin, after a key-up and `n` key-downs of any keys the counter is `min(n, 15)`. */
  lemma {:induction false} KeyCountRamps(pf: Platform, s: Slider, keys: seq<Key>)
    requires s.dialect == Kotlin
    ensures PressKeys(pf, OnKeyUp(s), keys).keyDownCount == if |keys| < 15 then |keys| else 15
  {
    KeyCountRampsFrom(pf, OnKeyUp(s), keys);
  }

  lemma {:induction false} KeyCountRampsFrom(pf: Platform, s: Slider, keys: seq<Key>)
    requires s.dialect == Kotlin && s.keyDownCount <= MAX_KEY_COUNT
    ensures var n := s.keyDownCount + |keys|;
            PressKeys(pf, s, keys).keyDownCount == if n < 15 then n else 15
    decreases |keys|
  {
    if |keys| > 0 {
      KeyCountRampsFrom(pf, OnKeyDown(pf, s, keys[0]).next, keys[1..]);
    }
  }

  /** Feed touch events with their clock readings; collect the signals emitted. */
  function RunTouches(pf: Platform, s: Slider, evs: seq<(TouchEvent, int)>): (Slider, seq<Signal>)
    decreases |evs|
  {
    if |evs| == 0 then (s, [])
    else
      var st := OnTouchEvent(pf, s, evs[0].0, evs[0].1);
      var (last, rest) := RunTouches(pf, st.next, evs[1..]);
      (last, (if st.emitted.Some? then [st.emitted.value] else []) + rest)
  }

  /** When only releases are reported, a gesture produces exactly one signal per release, each a
      propagating user edit, however many down and move events come before it. */
  lemma {:induction false} OnlyReleasesReported(pf: Platform, s: Slider, evs: seq<(TouchEvent, int)>)
    requires s.onlyUpdateOnTouchEventUp
    ensures |RunTouches(pf, s, evs).1| == Releases(evs)
    ensures forall i :: 0 <= i < |RunTouches(pf, s, evs).1| ==>
              RunTouches(pf, s, evs).1[i].fromUser && RunTouches(pf, s, evs).1[i].shouldPropagate
    decreases |evs|
  {
    if |evs| > 0 {
      var st := OnTouchEvent(pf, s, evs[0].0, evs[0].1);
      OnlyReleasesReported(pf, st.next, evs[1..]);
    }
  }

  /** The other registry of a bind: the colour source's emitter and the source's identity. */
  datatype Source = Source(id: WidgetId, emitter: Emitter<Observer>)

  /** A bind's effect on this slider and on the source's emitter (`None` when binding to null). */
  datatype Binding = Binding(step: Step<Slider>, source: Option<Emitter<Observer>>)

  /** `bind`: subscribe this slider's relay to the source, then take the source's colour as a user
      colour. Nothing previously bound is unsubscribed; binding to null only forgets the link. */
  function Bind(pf: Platform, s: Slider, self: WidgetId, source: Option<Source>): (r: Binding)
    ensures source.None? ==> r == Binding(Step(s.(bound := None), None, []), None)
    ensures source.Some? ==>
              && r.source == Some(Subscribe(source.value.emitter, Some(Relay(self))))
              && r.step.next.bound == Some(source.value.id)
              && var st := SetBaseColor(pf, s, source.value.emitter.color, true, true);
                 r.step == st.(next := st.next.(bound := Some(source.value.id)))
  {
    match source
    case None => Binding(Step(s.(bound := None), None, []), None)
    case Some(src) =>
      var e := Subscribe(src.emitter, Some(Relay(self)));
      var st := SetBaseColor(pf, s, e.color, true, true);
      Binding(st.(next := st.next.(bound := Some(src.id))), Some(e))
  }

  /** `unbind`: when bound, unsubscribe the relay from the bound source and forget the link; otherwise
      nothing. `source` is the bound source (the view holds it by reference; here it is passed in). */
  function Unbind(s: Slider, self: WidgetId, source: Source): (r: (Slider, Emitter<Observer>))
    requires s.bound.Some? ==> s.bound.value == source.id
    ensures s.bound.None? ==> r == (s, source.emitter)
    ensures s.bound.Some? ==> r.0 == s.(bound := None)
    ensures s.bound.Some? && Relay(self) !in source.emitter.observers ==> r.1 == source.emitter
    ensures s.bound.Some? && Relay(self) in source.emitter.observers ==>
              var obs := source.emitter.observers;
              var i := FirstIndex(obs, Relay(self));
              && r.1.observers == obs[..i] + obs[i + 1..]
              && multiset(r.1.observers) == multiset(obs) - multiset{Relay(self)}
    ensures r.1.color == source.emitter.color
  {
    if s.bound.Some? then
      RemoveFirstMultiset(source.emitter.observers, Relay(self));
      (s.(bound := None), Unsubscribe(source.emitter, Some(Relay(self))))
    else (s, source.emitter)
  }

  /** Once bound, every colour the source emits reaches this slider's relay, unchanged, last in line. */
  lemma BoundSliderHearsSource(pf: Platform, s: Slider, self: WidgetId, src: Source, sig: Signal)
    ensures var e := Bind(pf, s, self, Some(src)).source.value;
            var notes := OnColor(e, sig).1;
            |notes| == |src.emitter.observers| + 1 && notes[|notes| - 1] == Notification(Relay(self), sig)
  {
  }

  /** Binding and then unbinding leaves the source's registry as it was, when the relay was not
      registered there before. */
  lemma BindUnbindRestoresSource(pf: Platform, s: Slider, self: WidgetId, src: Source)
    requires Relay(self) !in src.emitter.observers
    ensures var b := Bind(pf, s, self, Some(src));
            Unbind(b.step.next, self, Source(src.id, b.source.value)).1 == src.emitter
  {
    SubscribeUnsubscribe(src.emitter, Relay(self));
  }

  /** Binding the same source twice without unbinding leaves two relay registrations there. */
  lemma RebindKeepsOldRelay(pf: Platform, s: Slider, self: WidgetId, src: Source)
    ensures var b1 := Bind(pf, s, self, Some(src));
            var b2 := Bind(pf, b1.step.next, self, Some(Source(src.id, b1.source.value)));
            multiset(b2.source.value.observers)[Relay(self)] == multiset(src.emitter.observers)[Relay(self)] + 2
  {
  }

  /** How `bindObserver` handles a colour from the bound source. `AsWrittenRelay` hands it straight to
      `setBaseColor`. `GuardedRelay` applies it the same way but does not announce a colour the view's
      emitter already holds, so a view fed back its own last colour stays quiet. */
  datatype RelayMode = AsWrittenRelay | GuardedRelay

  function Deliver(pf: Platform, s: Slider, sig: Signal, mode: RelayMode): (r: Step<Slider>)
    ensures var st := SetBaseColor(pf, s, sig.color, sig.fromUser, sig.shouldPropagate);
            && r.next == st.next.(emitter := r.next.emitter)
            && (mode == AsWrittenRelay ==> r == st)
            && (mode == GuardedRelay ==>
                  (r.emitted.Some? <==> st.emitted.Some? && st.emitted.value.color != s.emitter.color))
            && (r.emitted.Some? ==> r == st)
    ensures Published(s.emitter, r.next.emitter, r.emitted, r.notes)
  {
    var st := SetBaseColor(pf, s, sig.color, sig.fromUser, sig.shouldPropagate);
    if mode == GuardedRelay && st.emitted.Some? && st.emitted.value.color == s.emitter.color then
      Step(st.next.(emitter := s.emitter), None, [])
    else st
  }

  /** Two sliders bound to each other: `sender` has just announced `sig`, which reaches `receiver`
      through its relay; whatever `receiver` announces in turn reaches `sender` through its relay, and
      so on. The number of relay deliveries made, counting at most `fuel`. */
  function EchoDeliveries(pf: Platform, mode: RelayMode, sender: Slider, receiver: Slider, sig: Signal, fuel: nat): (n: nat)
    ensures n <= fuel
    ensures 0 < fuel ==> 1 <= n
    decreases fuel
  {
    if fuel == 0 then 0
    else
      var st := Deliver(pf, receiver, sig, mode);
      match st.emitted
      case None => 1
      case Some(echo) => 1 + EchoDeliveries(pf, mode, st.next, sender, echo, fuel - 1)
  }

  /** As written, a colour between two mutually bound sliders never stops when both report every touch
      (they re-announce whatever they are handed) or when it propagates (every view re-announces it, still
      propagating): any bound on the deliveries is reached. */
  lemma {:induction false} EchoNeverSettles(pf: Platform, sender: Slider, receiver: Slider, sig: Signal, fuel: nat)
    requires sig.shouldPropagate || (!sender.onlyUpdateOnTouchEventUp && !receiver.onlyUpdateOnTouchEventUp)
    ensures EchoDeliveries(pf, AsWrittenRelay, sender, receiver, sig, fuel) == fuel
    decreases fuel
  {
    if fuel > 0 {
      var st := Deliver(pf, receiver, sig, AsWrittenRelay);
      assert st.emitted.Some? && st.emitted.value.shouldPropagate == sig.shouldPropagate;
      assert st.next.onlyUpdateOnTouchEventUp == receiver.onlyUpdateOnTouchEventUp;
      EchoNeverSettles(pf, st.next, sender, st.emitted.value, fuel - 1);
    }
  }

  /** For HSV triples that come from a colour, `HSVToColor` with any alpha byte followed by `colorToHSV`
      gives the triple back. Only such triples reach `HSVToColor` in `assembleColor`; an arbitrary real
      triple need not survive, since colours are finitely many. */
  ghost predicate HsvRoundTrip(pf: Platform) {
    forall a: int, x: Color {:trigger pf.hsvToColor(a, pf.colorToHsv(x))} ::
      0 <= a <= 255 ==> pf.colorToHsv(pf.hsvToColor(a, pf.colorToHsv(x))) == pf.colorToHsv(x)
  }

  /** Some platform meets `HsvRoundTrip`: one that codes a colour as its hue and decodes the hue. */
  lemma HsvRoundTripSatisfiable()
    ensures exists pf: Platform :: HsvRoundTrip(pf)
  {
    var pf := Platform(
      (c: Color) => Hsv(c as real, 0.0, 0.0),
      (a: int, h: Hsv) => h.hue.Floor,
      x => x,
      (x, y, p, r) => 0,
      (c, p, r) => p);
    assert HsvRoundTrip(pf);
  }

  /** With the guarded relay, a slider's own user colour sent to a mutually bound slider, propagating
      or not, comes back at most once and then stops: the echo is its own colour again. */
  lemma GuardedEchoSettles(pf: Platform, a: Slider, b: Slider, propagate: bool, fuel: nat)
    requires HsvRoundTrip(pf) && Valid(a) && Valid(b)
    requires a.emitter.color == AssembleColor(pf, a.baseColor, a.currentValue)
    ensures EchoDeliveries(pf, GuardedRelay, a, b, Signal(a.emitter.color, true, propagate), fuel) <= 2
  {
    var c := a.emitter.color;
    var sig := Signal(c, true, propagate);
    if 2 < fuel {
      var st1 := Deliver(pf, b, sig, GuardedRelay);
      if st1.emitted.Some? {
        var echo := st1.emitted.value;
        assert echo.color == AssembleColor(pf, c, b.currentValue);
        var hA := pf.colorToHsv(a.baseColor);
        assert pf.colorToHsv(c) == hA;
        assert pf.colorToHsv(echo.color) == hA;
        var st2 := Deliver(pf, a, echo, GuardedRelay);
        assert AssembleColor(pf, echo.color, a.currentValue) == c;
        assert st2.emitted.None?;
        assert EchoDeliveries(pf, GuardedRelay, st1.next, a, echo, fuel - 1) == 1;
      }
    }
  }
}

=== FILE: throttle.dfy ===
/**
 * The rate limiter in front of pointer-down and pointer-move events
 * (`ThrottledTouchEventHandler`). The wall clock is a parameter: `now` is the
 * millisecond reading taken when the event arrives.
 */
module Throttle {
  import opened Options

  /** `attached` is false when the handler was built with a null target. */
  datatype Gate = Gate(minInterval: int, last: int, attached: bool)

  /** A handler forwarding to a widget: nothing has passed yet, so the last pass time is 0. */
  function New(minInterval: int): (g: Gate)
    ensures g.attached && g.last == 0 && g.minInterval == minInterval
  {
    Gate(minInterval, 0, true)
  }

  /** `onTouchEvent`: forward `e` (returned as `Some(e)`) and remember `now`,
      or drop it and leave the gate alone. */
  function OnTouchEvent<E>(g: Gate, now: int, e: E): (r: (Gate, Option<E>))
    ensures !g.attached ==> r == (g, None)
    ensures g.attached && now - g.last <= g.minInterval ==> r == (g, None)
    ensures g.attached && now - g.last > g.minInterval ==> r == (g.(last := now), Some(e))
  {
    if !g.attached then (g, None)
    else if now - g.last <= g.minInterval then (g, None)
    else (g.(last := now), Some(e))
  }

  /** Feed events at the clock readings `times`; return the final gate and the readings that passed. */
  function Run(g: Gate, times: seq<int>): (r: (Gate, seq<int>))
    decreases |times|
  {
    if |times| == 0 then (g, [])
    else
      var (g1, f) := OnTouchEvent(g, times[0], times[0]);
      var (g2, rest) := Run(g1, times[1..]);
      (g2, (if f.Some? then [times[0]] else []) + rest)
  }

  /** Each passed reading is more than `m` after the one before it (the first: after `start`). */
  ghost predicate Spaced(m: int, start: int, passed: seq<int>) {
    && (0 < |passed| ==> passed[0] - start > m)
    && forall i :: 0 < i < |passed| ==> passed[i] - passed[i - 1] > m
  }

  /** Forwarded events are always more than `minInterval` apart, whatever the clock does, and
      the gate ends up remembering the last one that passed. */
  lemma {:induction false} RunSpaced(g: Gate, times: seq<int>)
    requires g.attached
    ensures Spaced(g.minInterval, g.last, Run(g, times).1)
    ensures Run(g, times).0 == g.(last := if |Run(g, times).1| == 0 then g.last else Run(g, times).1[|Run(g, times).1| - 1])
    decreases |times|
  {
    if |times| > 0 {
      var (g1, f) := OnTouchEvent(g, times[0], times[0]);
      RunSpaced(g1, times[1..]);
    }
  }

  /** `a` is `b` with some elements left out, the rest kept in order. */
  ghost predicate IsSubsequence(a: seq<int>, b: seq<int>)
    decreases |b|
  {
    if |a| == 0 then true
    else if |b| == 0 then false
    else (a[0] == b[0] && IsSubsequence(a[1..], b[1..])) || IsSubsequence(a, b[1..])
  }

  lemma {:induction false} SubsequenceFacts(a: seq<int>, b: seq<int>)
    requires IsSubsequence(a, b)
    ensures |a| <= |b|
    ensures forall t :: t in a ==> t in b
    decreases |b|
  {
    if |a| > 0 {
      if a[0] == b[0] && IsSubsequence(a[1..], b[1..]) {
        SubsequenceFacts(a[1..], b[1..]);
        assert a == [a[0]] + a[1..];
        assert b == [b[0]] + b[1..];
      } else {
        SubsequenceFacts(a, b[1..]);
        assert b == [b[0]] + b[1..];
      }
    }
  }

  /** The readings that pass are the fed readings with some dropped, in their original order; in
      particular there are no more of them and each was fed in. */
  lemma {:induction false} RunPassesSubsequence(g: Gate, times: seq<int>)
    ensures IsSubsequence(Run(g, times).1, times)
    ensures |Run(g, times).1| <= |times|
    ensures forall t :: t in Run(g, times).1 ==> t in times
    decreases |times|
  {
    if |times| > 0 {
      var (g1, f) := OnTouchEvent(g, times[0], times[0]);
      RunPassesSubsequence(g1, times[1..]);
      var rest := Run(g1, times[1..]).1;
      if f.Some? {
        var passed := [times[0]] + rest;
        assert passed[1..] == rest;
        assert Run(g, times).1 == passed;
        assert IsSubsequence(passed, times);
      } else {
        assert Run(g, times).1 == rest;
        assert IsSubsequence(rest, times);
      }
    }
    SubsequenceFacts(Run(g, times).1, times);
  }

  /** With a non-negative interval, forwarded readings are strictly increasing. */
  lemma SpacedIsIncreasing(m: int, start: int, passed: seq<int>)
    requires 0 <= m && Spaced(m, start, passed)
    ensures forall i, j :: 0 <= i < j < |passed| ==> passed[i] < passed[j]
  {
    forall i, j | 0 <= i < j < |passed|
      ensures passed[i] < passed[j]
    {
      var k := i + 1;
      while k < j
        invariant i < k <= j && passed[i] < passed[k]
      {
        k := k + 1;
      }
    }
  }

  /** A detached gate forwards nothing and never moves. */
  lemma {:induction false} DetachedRunsSilent(g: Gate, times: seq<int>)
    requires !g.attached
    ensures Run(g, times) == (g, [])
    decreases |times|
  {
    if |times| > 0 {
      DetachedRunsSilent(g, times[1..]);
      assert OnTouchEvent(g, times[0], times[0]) == (g, None);
      assert [] + Run(g, times[1..]).1 == [];
    }
  }

  /** Two events `eps` apart on a fresh gate whose first event passes: the second passes exactly when
      `eps` exceeds the interval (an equal gap is dropped). */
  lemma TwoEvents(m: int, t0: int, eps: int)
    requires t0 > m
    ensures Run(New(m), [t0, t0 + eps]).1 == if eps > m then [t0, t0 + eps] else [t0]
  {
    var g1 := New(m).(last := t0);
    var tail: seq<int> := [t0 + eps];
    assert [t0, t0 + eps][1..] == tail;
    assert tail[1..] == [];
    assert OnTouchEvent(New(m), t0, t0) == (g1, Some(t0));
    if eps > m {
      var g2 := g1.(last := t0 + eps);
      assert OnTouchEvent(g1, t0 + eps, t0 + eps) == (g2, Some(t0 + eps));
      assert Run(g2, []) == (g2, []);
      assert Run(g1, tail) == (g2, [t0 + eps] + []);
    } else {
      assert OnTouchEvent(g1, t0 + eps, t0 + eps) == (g1, None);
      assert Run(g1, []) == (g1, []);
      assert Run(g1, tail) == (g1, [] + []);
    }
  }
}

=== FILE: wheel.dfy ===
/**
 * The hue/saturation wheel (`ColorWheelView`, in its Kotlin and Java
 * versions): geometry from the view size, touch updates, programmatic
 * colours, the Idle/Armed keyboard machine and the clamp that keeps the
 * selector on the disk. The hue and saturation maths is the platform's
 * `colorAtPoint`; the selector placement for a colour is its `placement`.
 */
module Wheel {
  import opened Options
  import opened Colors
  import opened ColorEmitter
  import Throttle
  import opened Widget

  /** Which diagonal-key table the wheel uses: the one each source file ships, or the corrected one
      in which every diagonal moves along both of its cardinal directions. */
  datatype Diagonals = AsWritten | Corrected

  datatype Wheel = Wheel(
    dialect: Dialect,
    diagonals: Diagonals,
    radius: real,
    centre: Point,
    selectorRadiusPx: real,
    isOnControl: bool,
    keyDownCount: nat,
    currentPoint: Point,
    currentColor: Color,
    onlyUpdateOnTouchEventUp: bool,
    emitter: Emitter<Observer>,
    gate: Throttle.Gate)

  /** A freshly constructed wheel: no geometry yet, Idle, magenta, no observers. */
  function New(dialect: Dialect, diagonals: Diagonals, minInterval: int, selectorRadiusPx: real): (w: Wheel)
    ensures w.currentColor == MAGENTA && !w.isOnControl && w.keyDownCount == 0 && !w.onlyUpdateOnTouchEventUp
    ensures w.radius == 0.0 && w.currentPoint == w.centre
    ensures w.emitter == ColorEmitter.New() && w.gate == Throttle.New(minInterval)
    ensures w.dialect == dialect && w.diagonals == diagonals && w.selectorRadiusPx == selectorRadiusPx
  {
    Wheel(dialect, diagonals, 0.0, Point(0.0, 0.0), selectorRadiusPx, false, 0, Point(0.0, 0.0), MAGENTA,
          false, ColorEmitter.New(), Throttle.New(minInterval))
  }

  /** `getColorAtPoint` with the wheel's current geometry. */
  function ColorAt(pf: Platform, w: Wheel, p: Point): Color {
    pf.colorAtPoint(p.x, p.y, w.centre, w.radius)
  }

  /** Squared distance of `p` from `c`. */
  function Dist2(p: Point, c: Point): real {
    (p.x - c.x) * (p.x - c.x) + (p.y - c.y) * (p.y - c.y)
  }

  /** `updateSelector`'s clamp, given the distance `r` the platform computed for `p`: a point farther
      than the radius from the centre is pulled in along its ray by `radius / r`; any other point stays.
      At the exact centre with a negative radius the source divides by zero, and the model keeps the point. */
  function ClampWith(centre: Point, radius: real, p: Point, r: real): (q: Point)
    ensures !(r > radius && r != 0.0) ==> q == p
    ensures r > radius && r != 0.0 ==>
              (q.x - centre.x) * r == (p.x - centre.x) * radius && (q.y - centre.y) * r == (p.y - centre.y) * radius
  {
    var x := p.x - centre.x;
    var y := p.y - centre.y;
    if r > radius && r != 0.0 then
      var k := radius / r;
      assert k * r == radius;
      assert (x * k) * r == x * (k * r) && (y * k) * r == y * (k * r);
      Point(x * k + centre.x, y * k + centre.y)
    else
      Point(x + centre.x, y + centre.y)
  }

  /** `updateSelector`'s clamp with the platform's square root: a point the platform measures within
      the radius stays; any other is pulled in along its ray, its offset shrunk by `radius / r`. */
  function Clamp(pf: Platform, centre: Point, radius: real, p: Point): (q: Point)
    ensures var r := pf.sqrt(Dist2(p, centre));
            && (!(r > radius && r != 0.0) ==> q == p)
            && (r > radius && r != 0.0 ==>
                  (q.x - centre.x) * r == (p.x - centre.x) * radius && (q.y - centre.y) * r == (p.y - centre.y) * radius)
  {
    ClampWith(centre, radius, p, pf.sqrt(Dist2(p, centre)))
  }

  /** `r` is the distance whose square is `v`. */
  predicate IsRoot(r: real, v: real) {
    0.0 <= r && r * r == v
  }

  lemma PositiveProduct(a: real, b: real)
    requires 0.0 < a && 0.0 < b
    ensures 0.0 < a * b
  {
  }

  lemma NonNegativeProduct(a: real, b: real)
    requires 0.0 <= a && 0.0 <= b
    ensures 0.0 <= a * b
  {
  }

  lemma SquareLess(a: real, b: real)
    requires 0.0 <= a < b
    ensures a * a < b * b
  {
    PositiveProduct(b - a, b + a);
    assert b * b - a * a == (b - a) * (b + a);
  }

  /** A distance exceeds the radius exactly when its square exceeds the radius's square. */
  lemma RootExceedsRadius(r: real, v: real, radius: real)
    requires IsRoot(r, v) && 0.0 <= radius
    ensures r > radius <==> v > radius * radius
    ensures v == radius * radius ==> r == radius
  {
    if r > radius { SquareLess(radius, r); }
    if r < radius { SquareLess(r, radius); }
  }

  lemma ScaledOntoCircle(x: real, y: real, r: real, radius: real)
    requires 0.0 < r && r * r == x * x + y * y
    ensures (x * (radius / r)) * (x * (radius / r)) + (y * (radius / r)) * (y * (radius / r)) == radius * radius
  {
    var k := radius / r;
    assert k * r == radius;
    calc {
      (x * k) * (x * k) + (y * k) * (y * k);
      == (k * k) * (x * x + y * y);
      == (k * k) * (r * r);
      == (k * r) * (k * r);
    }
  }

  lemma ClampWithKeepsInnerPoints(centre: Point, radius: real, p: Point, r: real)
    requires IsRoot(r, Dist2(p, centre)) && 0.0 <= radius && Dist2(p, centre) <= radius * radius
    ensures ClampWith(centre, radius, p, r) == p
  {
    RootExceedsRadius(r, Dist2(p, centre), radius);
  }

  /** The outer branch of the clamp: the offset from the centre is scaled by `radius / r`. */
  lemma ClampWithScales(centre: Point, radius: real, p: Point, r: real)
    requires r > radius && r != 0.0
    ensures ClampWith(centre, radius, p, r).x - centre.x == (p.x - centre.x) * (radius / r)
    ensures ClampWith(centre, radius, p, r).y - centre.y == (p.y - centre.y) * (radius / r)
  {
  }

  /** Scaling an offset of length `r` by `radius / r` keeps its direction and its signs. */
  lemma ScaledOffset(x: real, y: real, r: real, radius: real)
    requires 0.0 < r && r * r == x * x + y * y && 0.0 <= radius
    ensures (x * (radius / r)) * (x * (radius / r)) + (y * (radius / r)) * (y * (radius / r)) == radius * radius
    ensures (x * (radius / r)) * y == (y * (radius / r)) * x
    ensures 0.0 <= (x * (radius / r)) * x && 0.0 <= (y * (radius / r)) * y
  {
    var k := radius / r;
    assert 0.0 <= k;
    ScaledOntoCircle(x, y, r, radius);
    assert (x * k) * x == k * (x * x);
    assert (y * k) * y == k * (y * y);
    NonNegativeProduct(k, x * x);
    NonNegativeProduct(k, y * y);
  }

  lemma ClampWithProjectsOuterPoints(centre: Point, radius: real, p: Point, r: real)
    requires IsRoot(r, Dist2(p, centre)) && 0.0 <= radius && Dist2(p, centre) > radius * radius
    ensures var q := ClampWith(centre, radius, p, r);
            && Dist2(q, centre) == radius * radius
            && (q.x - centre.x) * (p.y - centre.y) == (q.y - centre.y) * (p.x - centre.x)
            && 0.0 <= (q.x - centre.x) * (p.x - centre.x)
            && 0.0 <= (q.y - centre.y) * (p.y - centre.y)
  {
    RootExceedsRadius(r, Dist2(p, centre), radius);
    ClampWithScales(centre, radius, p, r);
    ScaledOffset(p.x - centre.x, p.y - centre.y, r, radius);
  }

  lemma SquaresNonNegative(p: Point, c: Point)
    ensures 0.0 <= Dist2(p, c)
  {
  }

  /** Under a sound square root the platform's distance is a root of the squared distance. */
  lemma SoundDistance(pf: Platform, p: Point, c: Point)
    requires SqrtSound(pf)
    ensures IsRoot(pf.sqrt(Dist2(p, c)), Dist2(p, c))
  {
    SquaresNonNegative(p, c);
  }

  /** A point within the radius is left exactly where it is. */
  lemma ClampKeepsInnerPoints(pf: Platform, centre: Point, radius: real, p: Point)
    requires SqrtSound(pf) && 0.0 <= radius && Dist2(p, centre) <= radius * radius
    ensures Clamp(pf, centre, radius, p) == p
  {
    SoundDistance(pf, p, centre);
    ClampWithKeepsInnerPoints(centre, radius, p, pf.sqrt(Dist2(p, centre)));
  }

  /** A point beyond the radius lands exactly on the circle, on the same ray from the centre. */
  lemma ClampProjectsOuterPoints(pf: Platform, centre: Point, radius: real, p: Point)
    requires SqrtSound(pf) && 0.0 <= radius && Dist2(p, centre) > radius * radius
    ensures var q := Clamp(pf, centre, radius, p);
            && Dist2(q, centre) == radius * radius
            && (q.x - centre.x) * (p.y - centre.y) == (q.y - centre.y) * (p.x - centre.x)
            && 0.0 <= (q.x - centre.x) * (p.x - centre.x)
            && 0.0 <= (q.y - centre.y) * (p.y - centre.y)
  {
    SoundDistance(pf, p, centre);
    ClampWithProjectsOuterPoints(centre, radius, p, pf.sqrt(Dist2(p, centre)));
  }

  /** Whatever the input, the clamped point is on the disk. */
  lemma ClampInsideDisk(pf: Platform, centre: Point, radius: real, p: Point)
    requires SqrtSound(pf) && 0.0 <= radius
    ensures Dist2(Clamp(pf, centre, radius, p), centre) <= radius * radius
  {
    if Dist2(p, centre) <= radius * radius {
      ClampKeepsInnerPoints(pf, centre, radius, p);
    } else {
      ClampProjectsOuterPoints(pf, centre, radius, p);
    }
  }

  /** Clamping twice is clamping once. */
  lemma ClampIdempotent(pf: Platform, centre: Point, radius: real, p: Point)
    requires SqrtSound(pf) && 0.0 <= radius
    ensures Clamp(pf, centre, radius, Clamp(pf, centre, radius, p)) == Clamp(pf, centre, radius, p)
  {
    ClampInsideDisk(pf, centre, radius, p);
    ClampKeepsInnerPoints(pf, centre, radius, Clamp(pf, centre, radius, p));
  }

  /** `p` lies on the closed disk of the given centre and (non-negative) radius. */
  predicate InDisk(p: Point, c: Point, radius: real) {
    Dist2(p, c) <= radius * radius
  }

  /** The clamp never leaves a non-negative disk, for any centre, radius and point. */
  ghost predicate ClampStaysInDisk(pf: Platform) {
    forall c: Point, radius: real, q: Point {:trigger Clamp(pf, c, radius, q)} ::
      0.0 <= radius ==> InDisk(Clamp(pf, c, radius, q), c, radius)
  }

  lemma SoundClampStaysInDisk(pf: Platform)
    requires SqrtSound(pf)
    ensures ClampStaysInDisk(pf)
  {
    forall c: Point, radius: real, q: Point | 0.0 <= radius
      ensures InDisk(Clamp(pf, c, radius, q), c, radius)
    {
      ClampInsideDisk(pf, c, radius, q);
    }
  }

  /** `updateSelector`: the selector moves to the clamped point. */
  function UpdateSelector(pf: Platform, w: Wheel, p: Point): (r: Wheel)
    ensures r == w.(currentPoint := r.currentPoint)
    ensures r.currentPoint == Clamp(pf, w.centre, w.radius, p)
  {
    w.(currentPoint := Clamp(pf, w.centre, w.radius, p))
  }

  /** Record `w`'s emitter delivering `sig` (if any) in a step ending in `w` (with the emitter updated). */
  function Publish(w: Wheel, sig: Option<Signal>): (r: Step<Wheel>)
    ensures r.next == w.(emitter := r.next.emitter)
    ensures r.emitted == sig
    ensures Published(w.emitter, r.next.emitter, r.emitted, r.notes)
  {
    var (e, notes) := Emit(w.emitter, sig);
    Step(w.(emitter := e), sig, notes)
  }

  /** `setColor`: place the selector for the colour, remember the colour, and report it as a
      programmatic change unless only releases are reported. */
  function SetColor(pf: Platform, w: Wheel, c: Color, shouldPropagate: bool): (r: Step<Wheel>)
    ensures r.next == w.(currentPoint := Clamp(pf, w.centre, w.radius, pf.placement(c, w.centre, w.radius)),
                         currentColor := c, emitter := r.next.emitter)
    ensures r.emitted.Some? <==> !w.onlyUpdateOnTouchEventUp
    ensures r.emitted.Some? ==> r.emitted.value == Signal(c, false, shouldPropagate)
    ensures Published(w.emitter, r.next.emitter, r.emitted, r.notes)
  {
    var w1 := UpdateSelector(pf, w, pf.placement(c, w.centre, w.radius)).(currentColor := c);
    Publish(w1, if !w.onlyUpdateOnTouchEventUp then Some(Signal(c, false, shouldPropagate)) else None)
  }

  /** The radius `onSizeChanged` computes: half the smaller net side, less the selector's own radius. */
  function SizeRadius(w: Wheel, netWidth: int, netHeight: int): real {
    (if netWidth < netHeight then netWidth else netHeight) as real * 0.5 - w.selectorRadiusPx
  }

  /** `onSizeChanged`: the radius is stored even when negative; a negative radius stops there, leaving
      the centre and the selector alone. Otherwise the centre moves to half the net size and the current
      colour is re-placed without propagation. */
  function OnSizeChanged(pf: Platform, w: Wheel, width: int, height: int,
                         paddingLeft: int, paddingRight: int, paddingTop: int, paddingBottom: int): (r: Step<Wheel>)
    ensures var netW := width - paddingLeft - paddingRight;
            var netH := height - paddingTop - paddingBottom;
            var radius := SizeRadius(w, netW, netH);
            && r.next.radius == radius
            && (radius < 0.0 ==> r == Step(w.(radius := radius), None, []))
            && (0.0 <= radius ==>
                  r == SetColor(pf, w.(radius := radius, centre := Point(netW as real * 0.5, netH as real * 0.5)),
                                w.currentColor, false))
  {
    var netW := width - paddingLeft - paddingRight;
    var netH := height - paddingTop - paddingBottom;
    var w1 := w.(radius := SizeRadius(w, netW, netH));
    if w1.radius < 0.0 then Step(w1, None, [])
    else SetColor(pf, w1.(centre := Point(netW as real * 0.5, netH as real * 0.5)), w1.currentColor, false)
  }

  /** `update`: report the colour under the raw pointer unless only releases are reported; the selector
      follows the pointer (clamped) either way. */
  function Update(pf: Platform, w: Wheel, ev: TouchEvent): (r: Step<Wheel>)
    ensures r.next == w.(currentPoint := Clamp(pf, w.centre, w.radius, Point(ev.x, ev.y)), emitter := r.next.emitter)
    ensures r.emitted.Some? <==> EmitsOnTouch(w.onlyUpdateOnTouchEventUp, ev.action == ActionUp)
    ensures r.emitted.Some? ==> r.emitted.value == Signal(ColorAt(pf, w, Point(ev.x, ev.y)), true, ev.action == ActionUp)
    ensures Published(w.emitter, r.next.emitter, r.emitted, r.notes)
  {
    var p := Point(ev.x, ev.y);
    var isUp := ev.action == ActionUp;
    var sig := if !w.onlyUpdateOnTouchEventUp || isUp then Some(Signal(ColorAt(pf, w, p), true, isUp)) else None;
    Publish(UpdateSelector(pf, w, p), sig)
  }

  /** `onTouchEvent`: down and move go through the throttle, up is applied directly, anything else is ignored. */
  function OnTouchEvent(pf: Platform, w: Wheel, ev: TouchEvent, now: int): (r: Step<Wheel>)
    ensures ev.action == ActionUp ==> r == Update(pf, w, ev)
    ensures ev.action == ActionOther ==> r == Step(w, None, [])
    ensures (ev.action == ActionDown || ev.action == ActionMove) ==>
              var (g, fwd) := Throttle.OnTouchEvent(w.gate, now, ev);
              if fwd.Some? then r == Update(pf, w.(gate := g), ev) else r == Step(w, None, [])
  {
    match ev.action
    case ActionDown | ActionMove =>
      var (g, fwd) := Throttle.OnTouchEvent(w.gate, now, ev);
      if fwd.Some? then Update(pf, w.(gate := g), fwd.value) else Step(w.(gate := g), None, [])
    case ActionUp => Update(pf, w, ev)
    case ActionOther => Step(w, None, [])
  }

  /** What an armed key does: move the point, leave control (Back), or fall through. */
  datatype KeyAction = Move(dx: real, dy: real) | Disarm | Unhandled

  /** The key tables as the two source files write them, for a step of `k` pixels (the Kotlin
      counter) or 1 pixel (Java). Screen y grows downwards. */
  function AsWrittenAction(dialect: Dialect, key: Key, k: real): (a: KeyAction)
    ensures IsDirection(key) <==> a.Move?
    ensures key == Back ==> a == Disarm
    ensures !IsDirection(key) && key != Back ==> a == Unhandled
    ensures IsDirection(key) ==> a.dx == Horizontal(key) * k
    ensures IsDirection(key) && !IsDiagonal(key) ==> a.dy == Vertical(key) * k
    ensures dialect == Java && IsDiagonal(key) ==> a.dy == -Vertical(key) * k
    ensures dialect == Kotlin && IsDiagonal(key) ==> a.dy == if key == DpadDownRight then -k else k
  {
    match key
    case DpadLeft => Move(-k, 0.0)
    case DpadRight => Move(k, 0.0)
    case DpadUp => Move(0.0, -k)
    case DpadDown => Move(0.0, k)
    case DpadDownLeft => if dialect == Kotlin then Move(-k, k) else Move(-k, -k)
    case DpadDownRight => Move(k, -k)
    case DpadUpLeft => Move(-k, k)
    case DpadUpRight => Move(k, k)
    case Back => Disarm
    case _ => Unhandled
  }

  /** The horizontal and vertical parts of a key's direction: -1, 0 or 1 each. */
  function Horizontal(key: Key): real {
    match key
    case DpadLeft | DpadUpLeft | DpadDownLeft => -1.0
    case DpadRight | DpadUpRight | DpadDownRight => 1.0
    case _ => 0.0
  }

  function Vertical(key: Key): real {
    match key
    case DpadUp | DpadUpLeft | DpadUpRight => -1.0
    case DpadDown | DpadDownLeft | DpadDownRight => 1.0
    case _ => 0.0
  }

  predicate IsDiagonal(key: Key) {
    key.DpadUpLeft? || key.DpadUpRight? || key.DpadDownLeft? || key.DpadDownRight?
  }

  predicate IsDirection(key: Key) {
    key.DpadLeft? || key.DpadRight? || key.DpadUp? || key.DpadDown? || IsDiagonal(key)
  }

  /** The corrected table: every direction key moves `k` along each axis its name points to. */
  function CorrectedAction(key: Key, k: real): (a: KeyAction)
    ensures IsDirection(key) ==> a == Move(Horizontal(key) * k, Vertical(key) * k)
    ensures key == Back ==> a == Disarm
    ensures !IsDirection(key) && key != Back ==> a == Unhandled
  {
    if IsDirection(key) then Move(Horizontal(key) * k, Vertical(key) * k)
    else if key == Back then Disarm
    else Unhandled
  }

  /** As written, two different keys make the same move in Kotlin, and up-diagonals move down in both
      files while the plain up key moves up. */
  lemma AsWrittenDiagonalsDisagree(k: real)
    requires 0.0 < k
    ensures AsWrittenAction(Kotlin, DpadUpLeft, k) == AsWrittenAction(Kotlin, DpadDownLeft, k)
    ensures AsWrittenAction(Kotlin, DpadUp, k).dy < 0.0 && AsWrittenAction(Kotlin, DpadUpRight, k).dy > 0.0
    ensures AsWrittenAction(Java, DpadUp, 1.0).dy < 0.0 && AsWrittenAction(Java, DpadUpLeft, 1.0).dy > 0.0
    ensures AsWrittenAction(Java, DpadDown, 1.0).dy > 0.0 && AsWrittenAction(Java, DpadDownLeft, 1.0).dy < 0.0
  {
  }

  /** Two different direction keys differ in at least one axis. */
  lemma DirectionsDiffer(a: Key, b: Key)
    requires IsDirection(a) && IsDirection(b) && a != b
    ensures Horizontal(a) != Horizontal(b) || Vertical(a) != Vertical(b)
  {
    match a
    case DpadLeft =>
    case DpadRight =>
    case DpadUp =>
    case DpadDown =>
    case DpadUpLeft =>
    case DpadUpRight =>
    case DpadDownLeft =>
    case DpadDownRight =>
  }

  /** In the corrected table each diagonal is the sum of its two cardinal moves, and the eight
      direction keys make eight different moves. */
  lemma CorrectedDiagonalsCompose(k: real)
    requires 0.0 < k
    ensures CorrectedAction(DpadUpLeft, k) == Move(CorrectedAction(DpadLeft, k).dx, CorrectedAction(DpadUp, k).dy)
    ensures CorrectedAction(DpadUpRight, k) == Move(CorrectedAction(DpadRight, k).dx, CorrectedAction(DpadUp, k).dy)
    ensures CorrectedAction(DpadDownLeft, k) == Move(CorrectedAction(DpadLeft, k).dx, CorrectedAction(DpadDown, k).dy)
    ensures CorrectedAction(DpadDownRight, k) == Move(CorrectedAction(DpadRight, k).dx, CorrectedAction(DpadDown, k).dy)
    ensures forall a, b :: IsDirection(a) && IsDirection(b) && a != b ==> CorrectedAction(a, k) != CorrectedAction(b, k)
  {
    forall a, b | IsDirection(a) && IsDirection(b) && a != b
      ensures CorrectedAction(a, k) != CorrectedAction(b, k)
    {
      DirectionsDiffer(a, b);
      if Horizontal(a) != Horizontal(b) {
        assert Horizontal(a) * k != Horizontal(b) * k;
      } else {
        assert Vertical(a) * k != Vertical(b) * k;
      }
    }
  }

  /** Both as-written tables and the corrected one move by exactly the step on each axis they move along. */
  lemma MovesAreOneStepPerAxis(dialect: Dialect, key: Key, k: real)
    requires 0.0 < k
    ensures AsWrittenAction(dialect, key, k).Move? ==>
              var a := AsWrittenAction(dialect, key, k);
              (a.dx == -k || a.dx == 0.0 || a.dx == k) && (a.dy == -k || a.dy == 0.0 || a.dy == k) && (a.dx, a.dy) != (0.0, 0.0)
    ensures CorrectedAction(key, k).Move? ==>
              var a := CorrectedAction(key, k);
              (a.dx == -k || a.dx == 0.0 || a.dx == k) && (a.dy == -k || a.dy == 0.0 || a.dy == k) && (a.dx, a.dy) != (0.0, 0.0)
    ensures AsWrittenAction(dialect, key, k).Move? <==> IsDirection(key)
    ensures AsWrittenAction(dialect, key, k) == CorrectedAction(key, k) <==>
              !IsDirection(key) || key == DpadLeft || key == DpadRight || key == DpadUp || key == DpadDown ||
              (dialect == Kotlin && key == DpadDownLeft)
  {
  }

  /** The table this wheel uses. */
  function ActionFor(w: Wheel, key: Key, k: real): KeyAction {
    match w.diagonals
    case AsWritten => AsWrittenAction(w.dialect, key, k)
    case Corrected => CorrectedAction(key, k)
  }

  /** The counter after an armed key-down: bumped (and capped) in Kotlin; Java has no counter. */
  function CountAfterKeyDown(w: Wheel): nat {
    match w.dialect
    case Kotlin => BumpKeyCount(w.keyDownCount)
    case Java => w.keyDownCount
  }

  /** The step of an armed key, given the counter after the bump: the counter in Kotlin, one pixel in Java. */
  function StepPx(dialect: Dialect, count: nat): real {
    match dialect
    case Kotlin => count as real
    case Java => 1.0
  }

  /** A handled armed key: report the colour at the new point as a propagating user edit, then move the
      selector there (clamped). */
  function Pressed(pf: Platform, w: Wheel, p: Point): (r: Step<Wheel>)
    ensures r.next == w.(currentPoint := Clamp(pf, w.centre, w.radius, p), emitter := r.next.emitter)
    ensures r.emitted == Some(Signal(ColorAt(pf, w, p), true, true))
    ensures Published(w.emitter, r.next.emitter, r.emitted, r.notes)
  {
    Publish(UpdateSelector(pf, w, p), Some(Signal(ColorAt(pf, w, p), true, true)))
  }

  /** `onKeyDown`: Idle waits for Enter or Center to arm; Armed counts the press (Kotlin), then moves,
      disarms on Back (still reporting the colour at the unchanged point) or falls through. */
  function OnKeyDown(pf: Platform, w: Wheel, key: Key): (r: Step<Wheel>)
    ensures !w.isOnControl && (key == Enter || key == DpadCenter) ==> r == Step(w.(isOnControl := true), None, [])
    ensures !w.isOnControl && key != Enter && key != DpadCenter ==> r == Step(w, None, [])
    ensures w.isOnControl && w.dialect == Kotlin ==> r.next.keyDownCount == BumpKeyCount(w.keyDownCount)
    ensures w.isOnControl && w.dialect == Java ==> r.next.keyDownCount == w.keyDownCount
    ensures w.isOnControl ==>
              var a := ActionFor(w, key, StepPx(w.dialect, r.next.keyDownCount));
              && (a.Unhandled? ==> r == Step(w.(keyDownCount := r.next.keyDownCount), None, []))
              && (a.Disarm? ==>
                    && !r.next.isOnControl
                    && r.next.currentPoint == Clamp(pf, w.centre, w.radius, w.currentPoint)
                    && r.emitted == Some(Signal(ColorAt(pf, w, w.currentPoint), true, true)))
              && (a.Move? ==>
                    var p := Point(w.currentPoint.x + a.dx, w.currentPoint.y + a.dy);
                    && r.next.isOnControl
                    && r.next.currentPoint == Clamp(pf, w.centre, w.radius, p)
                    && r.emitted == Some(Signal(ColorAt(pf, w, p), true, true)))
              && r.next == w.(isOnControl := r.next.isOnControl, keyDownCount := r.next.keyDownCount,
                              currentPoint := r.next.currentPoint, emitter := r.next.emitter)
    ensures Published(w.emitter, r.next.emitter, r.emitted, r.notes)
  {
    if w.isOnControl then
      var w1 := w.(keyDownCount := CountAfterKeyDown(w));
      match ActionFor(w1, key, StepPx(w.dialect, w1.keyDownCount))
      case Unhandled => Step(w1, None, [])
      case Disarm => Pressed(pf, w1.(isOnControl := false), w.currentPoint)
      case Move(dx, dy) => Pressed(pf, w1, Point(w.currentPoint.x + dx, w.currentPoint.y + dy))
    else if key == Enter || key == DpadCenter then
      Step(w.(isOnControl := true), None, [])
    else
      Step(w, None, [])
  }

  /** `onKeyUp`: the Kotlin wheel resets its counter; the Java wheel does not override it. */
  function OnKeyUp(w: Wheel): (r: Wheel)
    ensures w.dialect == Kotlin ==> r == w.(keyDownCount := 0)
    ensures w.dialect == Java ==> r == w
  {
    match w.dialect
    case Kotlin => w.(keyDownCount := 0)
    case Java => w
  }

  /** The wheel's standing invariant: counter under its cap and, once the radius
      is non-negative, the selector on the disk. */
  ghost predicate Valid(w: Wheel) {
    && w.keyDownCount <= MAX_KEY_COUNT
    && (0.0 <= w.radius ==> InDisk(w.currentPoint, w.centre, w.radius))
  }

  lemma NewIsValid(pf: Platform, dialect: Dialect, diagonals: Diagonals, minInterval: int, selectorRadiusPx: real)
    ensures Valid(New(dialect, diagonals, minInterval, selectorRadiusPx))
  {
  }

  lemma TouchPreservesValid(pf: Platform, w: Wheel, ev: TouchEvent, now: int)
    requires ClampStaysInDisk(pf) && Valid(w)
    ensures Valid(OnTouchEvent(pf, w, ev, now).next)
  {
  }

  lemma KeysPreserveValid(pf: Platform, w: Wheel, key: Key)
    requires ClampStaysInDisk(pf) && Valid(w)
    ensures Valid(OnKeyDown(pf, w, key).next)
    ensures Valid(OnKeyUp(w))
  {
    if w.isOnControl {
      var q := KeyDownTarget(pf, w, key);
      ClampedStepKeepsValid(pf, w, OnKeyDown(pf, w, key).next, q);
    }
  }

  /** An armed key-down either leaves the selector or moves it to the clamp of some point, and never
      changes the geometry. */
  lemma KeyDownTarget(pf: Platform, w: Wheel, key: Key) returns (q: Point)
    requires w.isOnControl && w.keyDownCount <= MAX_KEY_COUNT
    ensures var n := OnKeyDown(pf, w, key).next;
            && n.centre == w.centre && n.radius == w.radius && n.keyDownCount <= MAX_KEY_COUNT
            && (n.currentPoint == w.currentPoint || n.currentPoint == Clamp(pf, w.centre, w.radius, q))
  {
    var r := OnKeyDown(pf, w, key);
    var a := ActionFor(w, key, StepPx(w.dialect, r.next.keyDownCount));
    q := w.currentPoint;
    if a.Move? {
      q := Point(w.currentPoint.x + a.dx, w.currentPoint.y + a.dy);
    }
  }

  /** A step that keeps the geometry and the counter cap, and either keeps the selector or moves it to
      the clamp of some point, keeps the invariant. */
  lemma ClampedStepKeepsValid(pf: Platform, w: Wheel, n: Wheel, q: Point)
    requires ClampStaysInDisk(pf) && Valid(w)
    requires n.centre == w.centre && n.radius == w.radius && n.keyDownCount <= MAX_KEY_COUNT
    requires n.currentPoint == w.currentPoint || n.currentPoint == Clamp(pf, w.centre, w.radius, q)
    ensures Valid(n)
  {
    if 0.0 <= w.radius && n.currentPoint != w.currentPoint {
      assert InDisk(Clamp(pf, w.centre, w.radius, q), w.centre, w.radius);
    }
  }

  /** Placing a colour leaves the selector on the disk. */
  lemma SetColorPreservesValid(pf: Platform, w: Wheel, c: Color, p: bool)
    requires ClampStaysInDisk(pf) && Valid(w)
    ensures Valid(SetColor(pf, w, c, p).next)
  {
    ClampedStepKeepsValid(pf, w, SetColor(pf, w, c, p).next, pf.placement(c, w.centre, w.radius));
  }

  /** A size change establishes the invariant from any counter within its cap: with a usable radius the
      selector lands on the disk of the new geometry, and a negative radius has no disk to leave. */
  lemma SizePreservesValid(pf: Platform, w: Wheel, width: int, height: int, pl: int, pr: int, pt: int, pb: int)
    requires ClampStaysInDisk(pf) && w.keyDownCount <= MAX_KEY_COUNT
    ensures Valid(OnSizeChanged(pf, w, width, height, pl, pr, pt, pb).next)
  {
    var netW := width - pl - pr;
    var netH := height - pt - pb;
    var radius := SizeRadius(w, netW, netH);
    if 0.0 <= radius {
      var w1 := w.(radius := radius, centre := Point(netW as real * 0.5, netH as real * 0.5));
      var n := SetColor(pf, w1, w.currentColor, false).next;
      var q := pf.placement(w.currentColor, w1.centre, w1.radius);
      assert n.currentPoint == Clamp(pf, w1.centre, w1.radius, q);
      assert InDisk(Clamp(pf, w1.centre, w1.radius, q), w1.centre, w1.radius);
    }
  }

  /** Feed touch events with their clock readings; collect the signals emitted. */
  function RunTouches(pf: Platform, w: Wheel, evs: seq<(TouchEvent, int)>): (Wheel, seq<Signal>)
    decreases |evs|
  {
    if |evs| == 0 then (w, [])
    else
      var st := OnTouchEvent(pf, w, evs[0].0, evs[0].1);
      var (last, rest) := RunTouches(pf, st.next, evs[1..]);
      (last, (if st.emitted.Some? then [st.emitted.value] else []) + rest)
  }

  /** When only releases are reported, the wheel emits exactly one propagating user signal per release. */
  lemma {:induction false} OnlyReleasesReported(pf: Platform, w: Wheel, evs: seq<(TouchEvent, int)>)
    requires w.onlyUpdateOnTouchEventUp
    ensures |RunTouches(pf, w, evs).1| == Releases(evs)
    ensures forall i :: 0 <= i < |RunTouches(pf, w, evs).1| ==>
              RunTouches(pf, w, evs).1[i].fromUser && RunTouches(pf, w, evs).1[i].shouldPropagate
    decreases |evs|
  {
    if |evs| > 0 {
      var st := OnTouchEvent(pf, w, evs[0].0, evs[0].1);
      OnlyReleasesReported(pf, st.next, evs[1..]);
    }
  }

  /** Enter arms the wheel, Back disarms it, and in between the keys that move report at the moved point. */
  lemma ArmMoveDisarm(pf: Platform, w: Wheel, key: Key)
    requires !w.isOnControl && IsDirection(key)
    ensures var armed := OnKeyDown(pf, w, Enter);
            var moved := OnKeyDown(pf, armed.next, key);
            var back := OnKeyDown(pf, moved.next, Back);
            && armed.emitted.None? && armed.next.isOnControl
            && moved.emitted.Some? && moved.next.isOnControl
            && back.emitted.Some? && !back.next.isOnControl
            && OnKeyDown(pf, back.next, key).emitted.None?
  {
    var armed := OnKeyDown(pf, w, Enter);
    assert armed.next == w.(isOnControl := true);
    var k := StepPx(w.dialect, CountAfterKeyDown(armed.next));
    assert ActionFor(armed.next, key, k).Move?;
    var moved := OnKeyDown(pf, armed.next, key);
    assert moved.next.isOnControl;
    var k2 := StepPx(w.dialect, CountAfterKeyDown(moved.next));
    assert ActionFor(moved.next, Back, k2).Disarm?;
    var back := OnKeyDown(pf, moved.next, Back);
    assert !back.next.isOnControl;
  }
}

=== FILE: widget.dfy ===
/**
 * What the slider and the wheel share: the input events they receive, the
 * observers that can be registered on them, the shape of one step (next
 * state, at most one emitted signal, the notifications it caused), and the
 * emission rule for touch updates.
 */
module Widget {
  import opened Options
  import opened Colors
  import opened ColorEmitter

  /** Identity of a widget instance. */
  type WidgetId = nat

  /** A registration: the relay a bound widget subscribes (`bindObserver`), or a host listener. */
  datatype Observer = Relay(sink: WidgetId) | Listener(id: nat)

  /** The repository ships a Kotlin and a Java version of each interactive view; they differ in key handling. */
  datatype Dialect = Kotlin | Java

  /** `MotionEvent.getActionMasked()`: down, move, up, or anything else (cancel, pointer events, ...). */
  datatype Action = ActionDown | ActionMove | ActionUp | ActionOther

  datatype TouchEvent = TouchEvent(action: Action, x: real, y: real)

  /** The key codes the views inspect; every other code is `OtherKey`. */
  datatype Key =
    | DpadLeft | DpadRight | DpadUp | DpadDown
    | DpadUpLeft | DpadUpRight | DpadDownLeft | DpadDownRight
    | DpadCenter | Enter | Back
    | OtherKey(code: int)

  /** The cap on the keyboard acceleration counter of the Kotlin views. */
  const MAX_KEY_COUNT: nat := 15

  /** The Kotlin views' counter bump on every handled key-down: one more, but never past the cap. */
  function BumpKeyCount(count: nat): (k: nat)
    ensures k == if count < MAX_KEY_COUNT then count + 1 else MAX_KEY_COUNT
    ensures 1 <= k <= MAX_KEY_COUNT
  {
    if count >= MAX_KEY_COUNT then MAX_KEY_COUNT else count + 1
  }

  /** The result of handling one event. */
  datatype Step<S> = Step(next: S, emitted: Option<Signal>, notes: seq<Notification<Observer>>)

  /** Call `emitter.onColor` when there is a signal; otherwise leave the emitter alone. */
  function Emit(e: Emitter<Observer>, s: Option<Signal>): (Emitter<Observer>, seq<Notification<Observer>>)
  {
    match s
    case None => (e, [])
    case Some(sig) => OnColor(e, sig)
  }

  /** `after` and `notes` are what `before` produces for `emitted`: with no signal nothing changes and
      nobody hears anything; with a signal the cache takes its colour and every registration hears it. */
  ghost predicate Published(before: Emitter<Observer>, after: Emitter<Observer>,
                            emitted: Option<Signal>, notes: seq<Notification<Observer>>)
  {
    && after.observers == before.observers
    && (emitted.None? ==> after == before && notes == [])
    && (emitted.Some? ==>
          && after.color == emitted.value.color
          && |notes| == |before.observers|
          && forall i :: 0 <= i < |notes| ==> notes[i] == Notification(before.observers[i], emitted.value))
  }

  lemma EmitPublishes(e: Emitter<Observer>, s: Option<Signal>)
    ensures Published(e, Emit(e, s).0, s, Emit(e, s).1)
  {
  }

  /** The shared `update` rule: a touch update is reported unless only releases are reported
      and this is not a release. */
  predicate EmitsOnTouch(onlyUpdateOnTouchEventUp: bool, isUp: bool) {
    !onlyUpdateOnTouchEventUp || isUp
  }

  /** How many of the timed events are releases. */
  function Releases(evs: seq<(TouchEvent, int)>): nat {
    if |evs| == 0 then 0 else (if evs[0].0.action == ActionUp then 1 else 0) + Releases(evs[1..])
  }
}
